=== FILE: README.md ===
# Skillmap skill-evidence and gap-analysis engine, in Dafny

Skillmap is a career-guidance web application. Behind its React pages and
FastAPI routes are a few pure functions over lists of skill names. This project
models those functions as immutable datatypes and total functions, and proves
what they promise:

- **Resume analyst** (`ResumeAnalyst`, from `src/services/resumeAnalyst.js`).
  - It gives each claimed skill an additive, capped confidence score.
  - It places the candidate in one of three seniority bands by total years.
  - It splits the scored skills into a confirmed list and a partial list, and
    sorts each by score.
- **Skill-gap analyser** (`SkillGap`, from `src/services/skillGapAnalyzer.js`).
  - It keys a prerequisite catalog by lower-cased name.
  - It turns every requirement the user does not hold into a "Missing" gap
    record, carrying that requirement's unmet prerequisites ("blockers") and a
    criticality score.
  - It sorts the records by criticality.
- **Roadmap endpoint** (`Roadmap`, from `backend/main.py`).
  - It splits a role's required skills into matched and missing.
  - It scores the match as an integer percentage.
  - It emits one learning step per missing skill, and builds the user-centred
    skill graph.
  - It also models the default skills that the resume endpoint substitutes
    for an empty extraction.
- **Resume skill extraction** (`ResumeParser`, from `backend/resume_parser.py`).
  - It matches keywords with regular-expression word boundaries.
  - It then applies six junk-token filter rules.
- **Skill-gap chart classification** (`SkillGapChart`, from
  `src/componants/SkillGapChart.jsx`). It sorts requirements into matched,
  partial and missing.
- **Mock graph builder** (`MockGraph`, from `src/services/mockAIService.js`).
  This is the front end's `generateGraphData`.

Shared modules:

- `Text`: ASCII lower- and upper-casing, substring search, white-space
  stripping, word counting and decimal rendering.
- `Seqs`: order-preserving filter and map, and first-occurrence
  de-duplication, with their multiset facts.
- `Sorting`: a stable descending sort by integer key. It is specified as
  sorted, a permutation of its input, and per-key order-preserving. It is
  proved to be the only such arrangement.
- `Graph`: the node and link records.

Case handling follows each source site exactly:

- The resume analyst's description match is case-insensitive. Its
  `skillsUsed` and `techStack` matches are exact-case.
- The gap analyser and the chart compare lower-cased names.
- The roadmap endpoint compares exactly.

The skill catalog file `src/data/techSkills.json` is not part of this model.
The catalog entries are a parameter.

## Model

| member | source | states |
|---|---|---|
| ResumeAnalyst.CalculateConfidence | src/services/resumeAnalyst.js:5-26 | The score is one of 10, 40, 70, 90 or 100. The contract gives the full table by evidence: 10 with no evidence, 40 with projects only, 70 with work but no long entry and no projects, 90 with a mention lasting more than a year but no projects, 100 with work plus projects (the raw 120 is capped). The score is above 65 exactly when some experience entry mentions the skill. |
| ResumeAnalyst.WorkMentionsIff | src/services/resumeAnalyst.js:9-14 | The filtered list of mentioning entries is non-empty exactly when some entry mentions the skill: case-insensitively in its description, or by exact name in `skillsUsed`. Some mentioning entry lasts more than one year exactly when such an entry exists in the history. |
| ResumeAnalyst.ProjectMentionsIff | src/services/resumeAnalyst.js:17-20 | Some project matches exactly when a tech stack names the skill in exact case. |
| ResumeAnalyst.SustainedImpliesWork | src/services/resumeAnalyst.js:13-14 | The one-year bonus never comes without a mention, so never without the +60. |
| ResumeAnalyst.OneYearEarnsNoBonus | src/services/resumeAnalyst.js:14 | A mentioning entry of exactly 1.0 years earns no bonus; the score is 70 without projects. |
| ResumeAnalyst.InferExperienceLevel | src/services/resumeAnalyst.js:28-32 | Junior exactly below 2 years, Mid-Level exactly in [2, 5), Senior exactly from 5 years on. |
| ResumeAnalyst.LevelMonotone | src/services/resumeAnalyst.js:28-32 | More years never give a lower band. |
| ResumeAnalyst.ScoreSkill | src/services/resumeAnalyst.js:45-56 | The record carries the skill's name and its confidence, which lies in [10, 100]. Its status is Confirmed exactly when the score is above 65, which holds exactly when there is work evidence. The evidence text matches the status. |
| ResumeAnalyst.ScoredClaims | src/services/resumeAnalyst.js:44-57 | One record per claimed skill, in claim order, the i-th being the score of the i-th claimed skill. |
| ResumeAnalyst.TotalYears | src/services/resumeAnalyst.js:64 | With non-negative durations the summed experience is non-negative. |
| ResumeAnalyst.TotalYearsAppend | src/services/resumeAnalyst.js:64 | The summed duration is additive over any split of the history, so every entry counts once. |
| ResumeAnalyst.TotalYearsBoundsEntry | src/services/resumeAnalyst.js:64 | With non-negative durations the total is at least every single entry's duration. |
| ResumeAnalyst.ClaimedSkills | src/services/resumeAnalyst.js:36-40 | The claimed skills are distinct. A name is claimed exactly when it appears in the languages, frameworks or tools list. |
| ResumeAnalyst.AnalyzeResume | src/services/resumeAnalyst.js:34-78 | The metadata holds the name, the summed years and the band of that sum. Confirmed and partial together are a permutation of the scored claims: one record per distinct claimed skill. Each list holds only records of its status, each record being the score of its own name. Each list is sorted by non-increasing score, with ties in claim order. |
| ResumeAnalyst.SplitPermutes | src/services/resumeAnalyst.js:60-74 | Filtering by status and sorting each part loses and duplicates no record. |
| ResumeAnalyst.NoClaimsNoRecords | src/services/resumeAnalyst.js:36-61 | With no claimed skills both lists are empty. |
| SkillGap.BuildCatalog | src/services/skillGapAnalyzer.js:7-10 | Every key is the lower-cased name of the entry stored under it, and every stored entry is one of the input entries. |
| SkillGap.CatalogKeepsLastEntry | src/services/skillGapAnalyzer.js:7-10 | A key is in the catalog exactly when some entry lower-cases to it. The key maps to the last such entry. |
| SkillGap.CatalogHasEveryKey | src/services/skillGapAnalyzer.js:7-10 | Every entry's lower-cased name is a key. |
| SkillGap.LastWriteWins | src/services/skillGapAnalyzer.js:8 | Of two entries whose names lower-case alike, the catalog keeps only the second. |
| SkillGap.HeldNames | src/services/skillGapAnalyzer.js:14 | A name is held exactly when some user skill lower-cases to it, and every held name is already lower-case. |
| SkillGap.Blockers | src/services/skillGapAnalyzer.js:22-30 | Uncatalogued skills have no blockers. Otherwise the blockers are the catalog prerequisites filtered to those the user does not hold (compared lower-cased), so they keep the catalog's order and multiplicity. Each blocker is such a prerequisite, and each such prerequisite is a blocker. |
| SkillGap.Criticality | src/services/skillGapAnalyzer.js:34-36 | The score is one of 50, 70, 80 or 100. It is 100 exactly with "Critical" in the reason and some blocker, 80 exactly with "Critical" and no blocker, at least 70 exactly with either one, and 50 exactly with neither. |
| SkillGap.BlockerCountIrrelevant | src/services/skillGapAnalyzer.js:36 | The score depends on whether there are blockers, not on how many. |
| SkillGap.MakeGap | src/services/skillGapAnalyzer.js:38-45 | The record keeps the requirement's name and has status "Missing". An empty reason becomes "Required for this role.". The difficulty comes from the catalog, or is "Unknown" when there is no entry or its difficulty is empty. It carries the blockers and their criticality. |
| SkillGap.Gaps | src/services/skillGapAnalyzer.js:17-47 | At most one record per requirement. Every record has status "Missing" and names a skill the user does not hold. |
| SkillGap.GapsAreUnheld | src/services/skillGapAnalyzer.js:17-47 | The i-th record is the record of the i-th requirement the user does not hold, so there is exactly one per unheld requirement, duplicates included. |
| SkillGap.GapsNeverHeld | src/services/skillGapAnalyzer.js:14-20 | No record names a held skill, and every record names some requirement. |
| SkillGap.AnalyzeSkillGap | src/services/skillGapAnalyzer.js:12-51 | The result is sorted by non-increasing criticality. It is a permutation of the records in requirement order, and records of equal score keep that order (stable sort). Its length is the number of unheld requirements. No requirements give an empty result. |
| SkillGap.AnalyzeSkillGapRecords | src/services/skillGapAnalyzer.js:17-46 | Every returned record is "Missing", names an unheld requirement, carries that skill's blockers, and scores 50, 70, 80 or 100. |
| SkillGap.HeldRequirementHasNoGap | src/services/skillGapAnalyzer.js:14-20 | A requirement whose lower-cased name some user skill has never yields a record, under any capitalisation. |
| SkillGap.DuplicateRequirementsDuplicateGaps | src/services/skillGapAnalyzer.js:17-46 | An unheld requirement listed twice gives two identical records. |
| SkillGap.CriticalWithBlockerScoresMax | src/services/skillGapAnalyzer.js:22-36 | "Vector Databases" with prerequisite "Data Analysis", a user who holds only "Python", and reason "Critical for RAG": one record, with blockers ["Data Analysis"] and score 100. |
| Sorting.SortDesc | src/services/skillGapAnalyzer.js:50 | The sort `(a, b) => b.score - a.score`: sorted non-increasing, a permutation of the input, and each key's elements in their input order. |
| Sorting.SortedStableEqual | src/services/resumeAnalyst.js:73-74 | Two sorted arrangements that keep every key's elements in the same order are equal, so the stable sort's result is determined. |
| Sorting.SortUnique | src/services/skillGapAnalyzer.js:50 | Any sorted, per-key order-preserving rearrangement of the input is exactly the sort's result. |
| Roadmap.RoleRequirements | backend/main.py:63-70 | Listed roles get their five skills. Any other role gets ["Python", "Git"]. The requirements are never empty. |
| Roadmap.RequirementsDistinct | backend/main.py:63-70 | No role's requirements repeat a skill or contain "You", so every graph node id is distinct from the user node. |
| Roadmap.CurrentSet | backend/main.py:60 | A skill is in the current set exactly when it appears in the request's list. |
| Roadmap.Missing | backend/main.py:72 | The requirements filtered to those not current, so they keep the requirements' order and multiplicity. No longer than the requirements. A skill is missing exactly when it is required and not current. |
| Roadmap.Matched | backend/main.py:73 | The requirements filtered to those current, so they keep the requirements' order and multiplicity. No longer than the requirements. A skill is matched exactly when it is required and current. |
| Roadmap.MatchedMissingPartition | backend/main.py:72-73 | Matched and missing together hold every requirement exactly once (multiset sum). A skill is matched exactly when it is required and current, and missing exactly when it is required and not current. |
| Roadmap.MatchScore | backend/main.py:76-77 | No requirements score 0. Otherwise the score is the floor of 100·matched/total, at most 100, and exactly 100 when every requirement is matched. |
| Roadmap.FloorBounds | backend/main.py:77 | The integer quotient is bracketed by 100·matched, does not exceed 100, and reaches 100 exactly at matched = total. |
| Roadmap.Steps | backend/main.py:80-99 | One step per missing skill, the i-th being "Learn <skill>" with id i+1 and timeline "Week i+1-i+2". With nothing missing, the single "Advanced Projects" step. The length is max(1, missing). |
| Roadmap.StepsRecoverMissing | backend/main.py:81-84 | The step ids run 1, 2, …. Removing "Learn " from the titles gives back the missing list exactly. |
| Roadmap.StepTimelinesDistinct | backend/main.py:85 | No two steps share a timeline. |
| Roadmap.RoadmapGraph | backend/main.py:102-111 | The user node first, then one "skill" node per matched and one "target" node per missing skill, in order. Its links are the user-to-matched links followed by the missing-to-user links. |
| Roadmap.YouLinks | backend/main.py:105-107 | One link per matched skill. Each matched skill has a link You→skill with value 5, and every link is such a link. |
| Roadmap.ToYouLinks | backend/main.py:109-111 | One link per missing skill. Each missing skill has a link skill→You with value 1, and every link is such a link. |
| Roadmap.GenerateRoadmap | backend/main.py:59-118 | `missing_skills` is exactly the missing list: the required skills not current, in order. The roadmap is the step list of that missing list: "Learn <skill>" with id i+1 and timeline "Week i+1-i+2" for the i-th missing skill, or the single "Advanced Projects" step when nothing is missing. Its length is max(1, missing). There are 1 + required nodes. |
| Roadmap.RoadmapPartition | backend/main.py:72-115 | The matched skills and the response's missing skills partition the requirements. |
| Roadmap.RoadmapScore | backend/main.py:76-114 | The response score is the floor percentage of held requirements, at most 100, and 100 exactly when nothing is missing. |
| Roadmap.RoadmapLinks | backend/main.py:102-111 | Every link goes either from You to a held skill (value 5) or from a missing skill to You (value 1). |
| Roadmap.AllHeldScoresFull | backend/main.py:76-99 | Holding every requirement scores 100 and yields only the "Advanced Projects" step. |
| Roadmap.NoneHeldScoresZero | backend/main.py:72-77 | Holding no requirement scores 0, and every requirement is missing. |
| Roadmap.DetectedSkills | backend/main.py:47-49 | The reported skills are never empty. They are the extracted skills when there are any, and {"Communication", "Teamwork"} otherwise. |
| ResumeParser.BlockedIsBlocklist | backend/resume_parser.py:85-95 | The row-by-row test is membership in the blocklist. |
| ResumeParser.KeywordHits | backend/resume_parser.py:74-78 | A keyword is a hit exactly when it is listed and the boundary pattern finds it in the lower-cased text. Every hit occurs, lower-cased, in the lower-cased text. |
| ResumeParser.CleanSkills | backend/resume_parser.py:97-125 | Every result passes the six rules and is the stripped form of some candidate. Every candidate whose stripped form passes is in the result. Every result is its own stripped form. |
| ResumeParser.AtMostTwoWords | backend/resume_parser.py:122 | A string with white space at no more than one position splits into at most two words, so it passes rule 6. |
| ResumeParser.ExtractSkills | backend/resume_parser.py:63-127 | Each result is the stripped form of a model entity or keyword hit, and every such candidate that passes the rules is a result. No result lower-cases to a stopword or blocklisted word. None contains '@' or is all digits, and none has more than three words. Each has length 2 or more unless it is "C", "c", "R" or "r". |
| ResumeParser.CleanSkillsRules | backend/resume_parser.py:97-125 | Each of the six rules holds of every cleaned skill: no stopword or blocklisted word, no '@', not all digits, at most three words, and length 2 or more unless "C", "c", "R" or "r". |
| ResumeParser.ShortSurvivors | backend/resume_parser.py:102 | A string shorter than two characters survives rule 1 only as c, C, r or R, so the empty string never survives. |
| ResumeParser.KeywordsPass | backend/resume_parser.py:65-72 | Every listed keyword is unchanged by stripping and passes all six rules. |
| ResumeParser.FoundKeywordKept | backend/resume_parser.py:74-125 | A keyword the matcher finds is always in the output. |
| ResumeParser.WordEdgedKeywordsAgree | backend/resume_parser.py:76 | For a keyword that begins and ends with a word character, `\b` matching and whole-token matching find the same occurrences. |
| ResumeParser.CPlusPlusMissed | backend/resume_parser.py:76-77 | As written, "C++" is not found in the text "C++", though it stands there as a whole token. |
| ResumeParser.CPlusPlusVersionFound | backend/resume_parser.py:76-77 | As written, "C++" is found in "C++17", where it is not a whole token; whole-token matching does not find it there. |
| ResumeParser.CSharpMissed | backend/resume_parser.py:76-77 | As written, "C#" is not found in "C#, Go", though it stands there as a whole token. |
| ResumeParser.TokenHits | backend/resume_parser.py:74-78 | With whole-token matching, a keyword is a hit exactly when it is listed and stands in the lower-cased text as a token. |
| ResumeParser.ExtractSkillsIntended | backend/resume_parser.py:65-125 | Only keyword detection differs from the extractor as written. Each result is the stripped form of a model entity or token hit, and every such candidate that passes the six rules is a result. Each rule holds of every result. Every listed keyword that stands in the text as a token is in the output. |
| ResumeParser.KeywordAloneIsFound | backend/resume_parser.py:65-78 | With whole-token matching, every keyword is found in a text consisting of just that keyword, "C++" and "C#" included. |
| SkillGapChart.FirstMatch | src/componants/SkillGapChart.jsx:7 | None exactly when no skill has the same lower-cased name. Otherwise the index of the first skill that does. |
| SkillGapChart.MatchOf | src/componants/SkillGapChart.jsx:7 | With no user skills nothing is found and the name is never read. Otherwise the result is the first skill with the same lower-cased name. |
| SkillGapChart.Classify | src/componants/SkillGapChart.jsx:6-13 | The status is "matched", "partial" or "missing". Every other field of the requirement is kept (and `userConfidence`, when no skill matched). The key set gains only "status", plus "userConfidence" taken from the first matching skill when there is one. |
| SkillGapChart.MissingIff | src/componants/SkillGapChart.jsx:7-12 | "missing" exactly when there are no user skills or none has the requirement's lower-cased name. |
| SkillGapChart.MatchedIff | src/componants/SkillGapChart.jsx:7-10 | "matched" exactly when there are user skills and the first one with that lower-cased name has confidence "high". |
| SkillGapChart.Categorize | src/componants/SkillGapChart.jsx:6-13 | One classified object per requirement, in order, the i-th being the i-th requirement's classification. Each has exactly one of the three statuses. |
| SkillGapChart.NoSkillsAllMissing | src/componants/SkillGapChart.jsx:6-13 | With no user skills every requirement becomes "missing" with its other fields unchanged, whatever its name field holds. |
| SkillGapChart.ClassifiedPartition | src/componants/SkillGapChart.jsx:15-17 | Each classified requirement passes exactly one of the three filters, so their multisets add up to the whole. |
| SkillGapChart.Split | src/componants/SkillGapChart.jsx:15-17 | Each list is the classified requirements filtered by its status, so it keeps their relative order. Together the three are a permutation of the classified requirements, their lengths add up to the requirement count, and each holds only objects of its status. |
| SkillGapChart.SameListNoMissing | src/componants/SkillGapChart.jsx:7-12 | Classifying a list against itself never yields "missing". |
| MockGraph.MatchedLinks | src/services/mockAIService.js:24-28 | Two links per matched skill: User→skill with value 5 and skill→Role with value 2. Every link is one of these. |
| MockGraph.RoleLinks | src/services/mockAIService.js:31-34 | One link Role→skill with value 8 per missing skill, and no other link. |
| MockGraph.GenerateGraphData | src/services/mockAIService.js:14-47 | The first nodes are User and Role, the first link is User→Role. Matched skills follow as "skill" nodes and then missing skills as "target" nodes, in order. There are 2 + matched + missing nodes, plus one for "AI Engineer". There are 1 + 2·matched + missing links, plus one for "AI Engineer" and one more when "Vector Databases" is missing. |
| MockGraph.UserLinksOnlyToRoleOrMatched | src/services/mockAIService.js:20-34 | Every link from the user ends at the role or at a matched skill, so a missing skill is never linked from the user. |
| MockGraph.SkillsLinked | src/services/mockAIService.js:24-34 | Each matched skill is linked from the user and to the role. Each missing skill is linked from the role. |
| Text.NatToStringRoundTrip | backend/main.py:85 | Decimal rendering is read back as the same number. |
| Text.NatToStringInjective | backend/main.py:85 | Different numbers render differently. |
| Text.Strip | backend/resume_parser.py:98 | The stripped string has no white space at either end. It occurs in the original at a position with only white space before it and only white space after it. |
| Text.StripUnchanged | backend/resume_parser.py:98 | A string without white space at its ends is unchanged by stripping. |
| Text.WordCountAppend | backend/resume_parser.py:122 | Splitting on white space gives at most as many words for a concatenation as for its parts together. |
| Seqs.Filter | backend/main.py:72-73 | The result holds only elements that pass the test, and every passing element of the input appears in it. |
| Seqs.FilterSingleton | backend/main.py:72-73 | A one-element list is kept whole when its element passes and dropped otherwise. |
| Seqs.FilterAppend | backend/main.py:72-73 | Filtering a concatenation filters each part and concatenates the results, so the relative order of the kept elements is the input's. |
| Seqs.FilterPartition | backend/main.py:72-73 | A filter and its complement split a sequence into parts whose multisets add up to the whole. |
| Seqs.FilterPartition3 | src/componants/SkillGapChart.jsx:15-17 | Three filters, each element passing exactly one, split a sequence the same way. |
| Seqs.Dedup | src/services/resumeAnalyst.js:36-40 | The set of a list is distinct, has exactly the list's elements, and is no longer than the list. |
| Seqs.DedupFirstAppearanceOrder | src/services/resumeAnalyst.js:36-44 | The set lists its values in the order of their first occurrence in the list, as a JavaScript `Set` iterates in insertion order. |

## Left out

- User interface, rendering, network routes, PDF and text decoding, and the
  language-model entity recogniser are not modelled. The recogniser's
  entities are an arbitrary input set of `ExtractSkills`.
- The analysis timestamp is not modelled, because it is wall-clock time.
  `Analysis` has no timestamp field.
- The mock constant resume and the example usages are not modelled.
- Randomised mock analysis elsewhere in the mock service is not modelled.
- Lower- and upper-casing, white space, digits and `\w` are ASCII only.
  JavaScript's `toLowerCase`, Python's `str.lower`, `isspace`, `\d` and `\w`
  also handle other Unicode characters.
- Roadmap.MatchScore: computes the exact integer floor of 100·matched/total.
  The source computes `int((m / t) * 100)` in binary floating point. The two
  agree for every total below 50, which covers every requirement list the
  role table can produce (5 or 2 skills). From 50 on the float product can
  fall just below an integer; 29 of 50 is the first such case.
- ResumeAnalyst durations are exact reals. Floating-point addition in
  `reduce` is not modelled.
- ResumeParser.ExtractSkills: returns a set. The source returns
  `list(set)`, whose order is hash order and not specified.
- The `analyze_resume` fallback is modelled on the extracted set. The source
  substitutes a two-element list literal.
- SkillGap.BuildCatalog: keys are plain strings. A JavaScript object lookup
  such as `SKILL_DB_MAP["constructor"]` would find inherited prototype
  properties; this is not modelled.
- SkillGap: an absent `reason`, `difficulty` or `prerequisites` field is
  modelled as the empty string or list, which the source treats the same
  way.
- SkillGap: the comment at `src/services/skillGapAnalyzer.js:33` says "+20"
  for a critical reason and "+10 per blocker". The code at lines 34-36 adds
  30 and a flat 20. The model follows the code.
- MockGraph.GenerateGraphData: skills are given by name, since no other
  field of a skill object is read. The "Vector Databases" check is modelled
  as name membership in the missing list.
- SkillGapChart.Classify: a requirement whose `name` is not a string is
  excluded by precondition only when there is at least one user skill. The
  component then throws in the `find` callback, which is not modelled. With
  no user skills the callback never runs, and such a requirement is
  classified "missing". User skills' names are strings by type.

## Findings

| source | as written | input that shows it | evidently intended | confidence | as-written member | corrected member |
|---|---|---|---|---|---|---|
| backend/resume_parser.py:76-77 | The pattern is `\b` + escaped keyword + `\b` for every keyword. After a keyword that ends in '+' or '#', the trailing `\b` needs a following word character. | The text "C++" (or "C#, Go"): the keywords "C++" and "C#" stand there as whole tokens but are not found. | Every listed keyword that appears as a whole token is detected. | not executed | ResumeParser.CPlusPlusMissed | ResumeParser.ExtractSkillsIntended |

`ResumeParser.CSharpMissed` exhibits the same flaw for "C#".
`ResumeParser.KeywordAloneIsFound` proves that whole-token matching finds
every keyword standing alone. `ResumeParser.WordEdgedKeywordsAgree` proves
that the two matchers agree on every keyword that begins and ends with a word
character. In the keyword list only "C++" and "C#" have a non-word edge, so
the correction changes the behaviour for those two keywords only. The change
goes both ways: `ResumeParser.CPlusPlusVersionFound` proves that the pattern
as written finds "C++" in "C++17", because a word character follows the
keyword, while whole-token matching does not; "C#" in "C#10" behaves alike.

=== FILE: graph.dfy ===
/**
 * The force-graph payload shared by the backend roadmap and the front-end
 * mock service: nodes keyed by `id`, links between node ids.
 */
module Graph {

  datatype Node = Node(id: string, name: string, group: string, val: int)

  datatype Link = Link(source: string, target: string, value: int)

  datatype GraphData = GraphData(nodes: seq<Node>, links: seq<Link>)

  /** A node whose id and display name are both the skill's name. */
  function SkillNamed(name: string, group: string, val: int): Node {
    Node(name, name, group, val)
  }
}

=== FILE: mock_graph.dfy ===
/**
 * The front-end mock service's knowledge-graph builder: a user node and a
 * role node, a "skill" node per matched skill linked from the user and to
 * the role, a "target" node per missing skill linked from the role only,
 * and two extra edges for the "AI Engineer" role. Skills are identified by
 * name; no other field of a skill record is read.
 */
module MockGraph {
  import opened Seqs
  import opened Graph

  const UserNode: Node := Node("User", "You", "user", 20)

  function RoleNode(role: string): Node {
    Node("Role", role, "category", 25)
  }

  const MathNode: Node := Node("Math", "Mathematics", "category", 15)

  const AiRole := "AI Engineer"

  /** The two links of each matched skill, in order: User→skill, then skill→Role. */
  function MatchedLinks(matched: seq<string>): (links: seq<Link>)
    ensures |links| == 2 * |matched|
    ensures forall s :: s in matched ==> Link("User", s, 5) in links && Link(s, "Role", 2) in links
    ensures forall l :: l in links ==>
      || (l.source == "User" && l.target in matched && l.value == 5)
      || (l.target == "Role" && l.source in matched && l.value == 2)
  {
    if |matched| == 0 then []
    else
      var rest := MatchedLinks(matched[1..]);
      assert forall s :: s in matched ==> s == matched[0] || s in matched[1..];
      [Link("User", matched[0], 5), Link(matched[0], "Role", 2)] + rest
  }

  /** One link per missing skill, from the role. */
  function RoleLinks(missing: seq<string>): (links: seq<Link>)
    ensures |links| == |missing|
    ensures forall s :: s in missing ==> Link("Role", s, 8) in links
    ensures forall l :: l in links ==> l.source == "Role" && l.target in missing && l.value == 8
  {
    if |missing| == 0 then []
    else
      var rest := RoleLinks(missing[1..]);
      assert forall s :: s in missing ==> s == missing[0] || s in missing[1..];
      [Link("Role", missing[0], 8)] + rest
  }

  /** The nodes and links added only for the "AI Engineer" role. */
  function ExtraNodes(role: string): seq<Node> {
    if role == AiRole then [MathNode] else []
  }

  function ExtraLinks(role: string, missing: seq<string>): seq<Link> {
    if role == AiRole then
      [Link("Math", "Machine Learning", 3)]
      + (if "Vector Databases" in missing then [Link("Data Analysis", "Vector Databases", 1)] else [])
    else []
  }

  /** `generateGraphData(role, matched, missing)`, with skills given by name. */
  function GenerateGraphData(role: string, matched: seq<string>, missing: seq<string>): (g: GraphData)
    ensures |g.nodes| == 2 + |matched| + |missing| + (if role == AiRole then 1 else 0)
    ensures |g.links| == 1 + 2 * |matched| + |missing|
      + (if role == AiRole then 1 + (if "Vector Databases" in missing then 1 else 0) else 0)
    ensures g.nodes[0] == UserNode && g.nodes[1] == RoleNode(role)
    ensures g.links[0] == Link("User", "Role", 1)
    ensures forall i :: 0 <= i < |matched| ==> g.nodes[2 + i] == SkillNamed(matched[i], "skill", 10)
    ensures forall i :: 0 <= i < |missing| ==> g.nodes[2 + |matched| + i] == SkillNamed(missing[i], "target", 10)
  {
    var nodes := [UserNode, RoleNode(role)]
      + Map((s: string) => SkillNamed(s, "skill", 10), matched)
      + Map((s: string) => SkillNamed(s, "target", 10), missing)
      + ExtraNodes(role);
    var links := [Link("User", "Role", 1)]
      + MatchedLinks(matched)
      + RoleLinks(missing)
      + ExtraLinks(role, missing);
    GraphData(nodes, links)
  }

  /** The links of `GenerateGraphData`, in the order they are pushed. */
  lemma LinksAre(role: string, matched: seq<string>, missing: seq<string>)
    ensures GenerateGraphData(role, matched, missing).links
      == [Link("User", "Role", 1)] + MatchedLinks(matched) + RoleLinks(missing) + ExtraLinks(role, missing)
  {
  }

  /**
   * Every link leaving the user ends at the role or at a matched skill, so a
   * missing skill is never linked from the user (unless it is also matched).
   */
  lemma UserLinksOnlyToRoleOrMatched(role: string, matched: seq<string>, missing: seq<string>)
    ensures forall l :: l in GenerateGraphData(role, matched, missing).links && l.source == "User" ==>
      l.target == "Role" || l.target in matched
  {
    LinksAre(role, matched, missing);
  }

  /** Each matched skill is linked from the user and to the role; each missing one from the role. */
  lemma SkillsLinked(role: string, matched: seq<string>, missing: seq<string>)
    ensures forall s :: s in matched ==>
      Link("User", s, 5) in GenerateGraphData(role, matched, missing).links
      && Link(s, "Role", 2) in GenerateGraphData(role, matched, missing).links
    ensures forall s :: s in missing ==> Link("Role", s, 8) in GenerateGraphData(role, matched, missing).links
  {
    LinksAre(role, matched, missing);
  }
}

=== FILE: resume_analyst.dfy ===
/**
 * The resume analyst: a capped additive confidence score per claimed skill,
 * a three-band seniority level, and the split of the scored skills into a
 * confirmed and a partial list, each ordered by decreasing score.
 */
module ResumeAnalyst {
  import opened Text
  import opened Seqs
  import opened Sorting

  datatype ExperienceEntry = ExperienceEntry(
    role: string,
    company: string,
    durationYears: real,
    description: string,
    skillsUsed: seq<string>)

  datatype Project = Project(name: string, techStack: seq<string>)

  datatype ParsedResume = ParsedResume(
    name: string,
    languages: seq<string>,
    frameworks: seq<string>,
    tools: seq<string>,
    experience: seq<ExperienceEntry>,
    projects: seq<Project>)

  datatype SkillStatus = Confirmed | PartialWeak

  datatype ScoredSkill = ScoredSkill(name: string, confidenceScore: int, status: SkillStatus, evidence: string)

  datatype Level = Junior | MidLevel | Senior

  datatype Metadata = Metadata(candidateName: string, inferredLevel: Level, totalExperienceYears: real)

  /** The analysis result without its wall-clock timestamp. */
  datatype Analysis = Analysis(metadata: Metadata, confirmedSkills: seq<ScoredSkill>, partialSkills: seq<ScoredSkill>)

  const WorkWeight := 60
  const SustainedWeight := 20
  const ProjectWeight := 30
  const ClaimWeight := 10
  const ScoreCap := 100
  /** Scores strictly above this are confirmed. */
  const ConfirmThreshold := 65

  const ConfirmedEvidence := "Verified via Work Experience"
  const PartialEvidence := "Mentioned in Skills list only"

  /** An experience entry mentions a skill: case-insensitively in its description, or by exact name in `skillsUsed`. */
  predicate MentionsSkill(role: ExperienceEntry, skill: string) {
    Contains(Lower(role.description), Lower(skill)) || skill in role.skillsUsed
  }

  /** A project uses a skill when its tech stack names it exactly. */
  predicate UsesSkill(project: Project, skill: string) {
    skill in project.techStack
  }

  // Evidence, stated independently of the scoring code.

  predicate HasWorkEvidence(skill: string, experience: seq<ExperienceEntry>) {
    exists i :: 0 <= i < |experience| && MentionsSkill(experience[i], skill)
  }

  /** Some entry that mentions the skill lasted strictly more than one year. */
  predicate HasSustainedWork(skill: string, experience: seq<ExperienceEntry>) {
    exists i :: 0 <= i < |experience| && MentionsSkill(experience[i], skill) && experience[i].durationYears > 1.0
  }

  predicate HasProjectEvidence(skill: string, projects: seq<Project>) {
    exists j :: 0 <= j < |projects| && UsesSkill(projects[j], skill)
  }

  /** The experience entries that mention the skill (`experience.filter(...)`). */
  function WorkMentions(skill: string, experience: seq<ExperienceEntry>): seq<ExperienceEntry> {
    Filter(experience, (role: ExperienceEntry) => MentionsSkill(role, skill))
  }

  /** The projects whose tech stack names the skill. */
  function ProjectMentions(skill: string, projects: seq<Project>): seq<Project> {
    Filter(projects, (p: Project) => UsesSkill(p, skill))
  }

  /** Some mention lasted more than a year (`workMentions.some(...)`). */
  predicate SomeSustained(mentions: seq<ExperienceEntry>) {
    exists i :: 0 <= i < |mentions| && mentions[i].durationYears > 1.0
  }

  lemma WorkMentionsIff(skill: string, experience: seq<ExperienceEntry>)
    ensures |WorkMentions(skill, experience)| > 0 <==> HasWorkEvidence(skill, experience)
    ensures SomeSustained(WorkMentions(skill, experience)) <==> HasSustainedWork(skill, experience)
  {
    var w := WorkMentions(skill, experience);
    if HasWorkEvidence(skill, experience) {
      var i :| 0 <= i < |experience| && MentionsSkill(experience[i], skill);
      assert experience[i] in w;
    }
    if |w| > 0 {
      var j :| 0 <= j < |experience| && experience[j] == w[0];
    }
    SustainedIff(skill, experience);
  }

  lemma SustainedIff(skill: string, experience: seq<ExperienceEntry>)
    ensures SomeSustained(WorkMentions(skill, experience)) <==> HasSustainedWork(skill, experience)
  {
    var w := WorkMentions(skill, experience);
    if HasSustainedWork(skill, experience) {
      var i :| 0 <= i < |experience| && MentionsSkill(experience[i], skill) && experience[i].durationYears > 1.0;
      assert experience[i] in w;
    }
    if SomeSustained(w) {
      var i :| 0 <= i < |w| && w[i].durationYears > 1.0;
      var j :| 0 <= j < |experience| && experience[j] == w[i];
    }
  }

  lemma ProjectMentionsIff(skill: string, projects: seq<Project>)
    ensures |ProjectMentions(skill, projects)| > 0 <==> HasProjectEvidence(skill, projects)
  {
    var p := ProjectMentions(skill, projects);
    if HasProjectEvidence(skill, projects) {
      var j :| 0 <= j < |projects| && UsesSkill(projects[j], skill);
      assert projects[j] in p;
    }
    if |p| > 0 {
      var j :| 0 <= j < |projects| && projects[j] == p[0];
    }
  }

  /**
   * The confidence heuristic: +60 when some entry mentions the skill, +20 when
   * one of those mentioning entries lasted more than a year, +30 for project
   * use, +10 for the claim itself, capped at 100. The contract gives the full
   * table of outcomes by evidence.
   */
  function CalculateConfidence(skill: string, experience: seq<ExperienceEntry>, projects: seq<Project>): (score: int)
    ensures score == 10 || score == 40 || score == 70 || score == 90 || score == 100
    ensures !HasWorkEvidence(skill, experience) && !HasProjectEvidence(skill, projects) ==> score == 10
    ensures !HasWorkEvidence(skill, experience) && HasProjectEvidence(skill, projects) ==> score == 40
    ensures HasWorkEvidence(skill, experience) && !HasSustainedWork(skill, experience) && !HasProjectEvidence(skill, projects) ==> score == 70
    ensures HasSustainedWork(skill, experience) && !HasProjectEvidence(skill, projects) ==> score == 90
    ensures HasWorkEvidence(skill, experience) && HasProjectEvidence(skill, projects) ==> score == 100
    ensures score > ConfirmThreshold <==> HasWorkEvidence(skill, experience)
  {
    var workMentions := WorkMentions(skill, experience);
    var projectMentions := ProjectMentions(skill, projects);
    WorkMentionsIff(skill, experience);
    ProjectMentionsIff(skill, projects);
    var raw :=
      (if |workMentions| > 0 then WorkWeight else 0)
      + (if SomeSustained(workMentions) then SustainedWeight else 0)
      + (if |projectMentions| > 0 then ProjectWeight else 0)
      + ClaimWeight;
    if raw < ScoreCap then raw else ScoreCap
  }

  /** The one-year bonus only ever comes with work evidence: sustained use implies a mention. */
  lemma SustainedImpliesWork(skill: string, experience: seq<ExperienceEntry>)
    requires HasSustainedWork(skill, experience)
    ensures HasWorkEvidence(skill, experience)
  {
  }

  /** A mentioning entry of exactly one year earns no bonus: the score stays at 70 without project use. */
  lemma OneYearEarnsNoBonus(skill: string, description: string)
    ensures CalculateConfidence(skill, [ExperienceEntry("Dev", "Co", 1.0, description, [skill])], []) == 70
  {
    var e := ExperienceEntry("Dev", "Co", 1.0, description, [skill]);
    assert MentionsSkill([e][0], skill);
    assert HasWorkEvidence(skill, [e]);
  }

  function LevelRank(level: Level): nat {
    match level
    case Junior => 0
    case MidLevel => 1
    case Senior => 2
  }

  /** Three bands: below 2 years Junior, below 5 Mid-Level, otherwise Senior. */
  function InferExperienceLevel(years: real): (level: Level)
    ensures level == Junior <==> years < 2.0
    ensures level == MidLevel <==> 2.0 <= years < 5.0
    ensures level == Senior <==> 5.0 <= years
  {
    if years < 2.0 then Junior
    else if years < 5.0 then MidLevel
    else Senior
  }

  /** More experience never yields a lower level. */
  lemma LevelMonotone(a: real, b: real)
    requires a <= b
    ensures LevelRank(InferExperienceLevel(a)) <= LevelRank(InferExperienceLevel(b))
  {
  }

  /** The boundaries are exact: 2 and 5 years start the higher band. */
  lemma LevelBoundaries()
    ensures InferExperienceLevel(1.99) == Junior
    ensures InferExperienceLevel(2.0) == MidLevel
    ensures InferExperienceLevel(4.99) == MidLevel
    ensures InferExperienceLevel(5.0) == Senior
  {
  }

  /** Score one claimed skill and classify it. */
  function ScoreSkill(skill: string, experience: seq<ExperienceEntry>, projects: seq<Project>): (s: ScoredSkill)
    ensures s.name == skill
    ensures 10 <= s.confidenceScore <= 100
    ensures s.status == Confirmed <==> HasWorkEvidence(skill, experience)
    ensures s.status == Confirmed <==> s.confidenceScore > ConfirmThreshold
    ensures s.evidence == (if s.status == Confirmed then ConfirmedEvidence else PartialEvidence)
    ensures s.confidenceScore == CalculateConfidence(skill, experience, projects)
  {
    var confidence := CalculateConfidence(skill, experience, projects);
    ScoredSkill(
      skill,
      confidence,
      if confidence > ConfirmThreshold then Confirmed else PartialWeak,
      if confidence > ConfirmThreshold then ConfirmedEvidence else PartialEvidence)
  }

  /** Sum of the durations, accumulated left to right from 0. */
  function TotalYears(experience: seq<ExperienceEntry>): (total: real)
    ensures (forall j :: 0 <= j < |experience| ==> experience[j].durationYears >= 0.0) ==> total >= 0.0
  {
    if |experience| == 0 then 0.0
    else
      var prefix := experience[..|experience| - 1];
      assert forall j :: 0 <= j < |prefix| ==> prefix[j] == experience[j];
      TotalYears(prefix) + experience[|experience| - 1].durationYears
  }

  /** The total is additive over a split of the history, so every entry counts once, overlaps included. */
  lemma {:induction false} TotalYearsAppend(a: seq<ExperienceEntry>, b: seq<ExperienceEntry>)
    ensures TotalYears(a + b) == TotalYears(a) + TotalYears(b)
    decreases |b|
  {
    if |b| == 0 {
      assert a + b == a;
    } else {
      assert (a + b)[..|a + b| - 1] == a + b[..|b| - 1];
      TotalYearsAppend(a, b[..|b| - 1]);
    }
  }

  /** With non-negative durations the total bounds every single entry. */
  lemma {:induction false} TotalYearsBoundsEntry(experience: seq<ExperienceEntry>, i: int)
    requires forall j :: 0 <= j < |experience| ==> experience[j].durationYears >= 0.0
    requires 0 <= i < |experience|
    ensures TotalYears(experience) >= experience[i].durationYears
    ensures TotalYears(experience[..i]) >= 0.0
  {
    var n := |experience|;
    if i < n - 1 {
      assert experience[..n - 1][..i] == experience[..i];
      TotalYearsBoundsEntry(experience[..n - 1], i);
    } else {
      assert experience[..n - 1] == experience[..i];
      if i > 0 {
        TotalYearsBoundsEntry(experience[..i], i - 1);
      }
    }
  }

  /** Claimed skills: the languages, frameworks and tools lists joined, each name once, in order of first appearance. */
  function ClaimedSkills(resume: ParsedResume): (claimed: seq<string>)
    ensures Distinct(claimed)
    ensures forall s :: s in claimed <==> s in resume.languages || s in resume.frameworks || s in resume.tools
  {
    var all := resume.languages + resume.frameworks + resume.tools;
    var d := Dedup(all);
    forall s | s in all
      ensures s in d
    {
      var i :| 0 <= i < |all| && all[i] == s;
    }
    d
  }

  function ScoreOf(s: ScoredSkill): int {
    s.confidenceScore
  }

  predicate IsConfirmed(s: ScoredSkill) {
    s.status == Confirmed
  }

  predicate IsPartial(s: ScoredSkill) {
    s.status == PartialWeak
  }

  /** The scored records in claim order, before the split. */
  function ScoredClaims(resume: ParsedResume): (records: seq<ScoredSkill>)
    ensures |records| == |ClaimedSkills(resume)|
    ensures forall i :: 0 <= i < |records| ==> records[i] == ScoreSkill(ClaimedSkills(resume)[i], resume.experience, resume.projects)
  {
    Map((s: string) => ScoreSkill(s, resume.experience, resume.projects), ClaimedSkills(resume))
  }

  /**
   * One record per distinct claimed skill, split into confirmed (score above
   * 65) and partial, each list sorted by non-increasing score with ties in
   * claim order; metadata carries the summed years and the inferred level.
   */
  function AnalyzeResume(resume: ParsedResume): (a: Analysis)
    ensures a.metadata.candidateName == resume.name
    ensures a.metadata.totalExperienceYears == TotalYears(resume.experience)
    ensures a.metadata.inferredLevel == InferExperienceLevel(TotalYears(resume.experience))
    ensures SortedDesc(a.confirmedSkills, ScoreOf)
    ensures SortedDesc(a.partialSkills, ScoreOf)
    ensures forall i :: 0 <= i < |a.confirmedSkills| ==>
      var s := a.confirmedSkills[i];
      s == ScoreSkill(s.name, resume.experience, resume.projects) && s.status == Confirmed && s.confidenceScore > ConfirmThreshold
    ensures forall i :: 0 <= i < |a.partialSkills| ==>
      var s := a.partialSkills[i];
      s == ScoreSkill(s.name, resume.experience, resume.projects) && s.status == PartialWeak && s.confidenceScore <= ConfirmThreshold
    ensures multiset(a.confirmedSkills + a.partialSkills) == multiset(ScoredClaims(resume))
    ensures forall k :: KeyFilter(a.confirmedSkills, ScoreOf, k) == KeyFilter(Filter(ScoredClaims(resume), IsConfirmed), ScoreOf, k)
    ensures forall k :: KeyFilter(a.partialSkills, ScoreOf, k) == KeyFilter(Filter(ScoredClaims(resume), IsPartial), ScoreOf, k)
  {
    var records := ScoredClaims(resume);
    var total := TotalYears(resume.experience);
    var a := Analysis(
      Metadata(resume.name, InferExperienceLevel(total), total),
      SortDesc(Filter(records, IsConfirmed), ScoreOf),
      SortDesc(Filter(records, IsPartial), ScoreOf));
    SplitPermutes(records);
    ScoredMembers(resume, IsConfirmed);
    ScoredMembers(resume, IsPartial);
    a
  }

  /** Sorting the two parts of a split loses and duplicates no record. */
  lemma SplitPermutes(records: seq<ScoredSkill>)
    ensures multiset(SortDesc(Filter(records, IsConfirmed), ScoreOf) + SortDesc(Filter(records, IsPartial), ScoreOf)) == multiset(records)
  {
    FilterPartition(records, IsConfirmed, IsPartial);
  }

  /** Sorting a filtered part draws its elements from the records, each satisfying the filter. */
  lemma PartMember(records: seq<ScoredSkill>, p: ScoredSkill -> bool, x: ScoredSkill)
    requires x in SortDesc(Filter(records, p), ScoreOf)
    ensures x in records && p(x)
  {
    var filtered := Filter(records, p);
    assert x in multiset(SortDesc(filtered, ScoreOf));
    assert x in multiset(filtered);
    var j :| 0 <= j < |filtered| && filtered[j] == x;
  }

  /** Every scored record is the score of its own name. */
  lemma ScoredRecord(resume: ParsedResume, x: ScoredSkill)
    requires x in ScoredClaims(resume)
    ensures x == ScoreSkill(x.name, resume.experience, resume.projects)
  {
    var records := ScoredClaims(resume);
    var k :| 0 <= k < |records| && records[k] == x;
  }

  /** Every record of a sorted part is the score of its own name and satisfies the part's predicate. */
  lemma ScoredMembers(resume: ParsedResume, p: ScoredSkill -> bool)
    ensures
      var part := SortDesc(Filter(ScoredClaims(resume), p), ScoreOf);
      forall i :: 0 <= i < |part| ==>
        p(part[i]) && part[i] == ScoreSkill(part[i].name, resume.experience, resume.projects)
  {
    var part := SortDesc(Filter(ScoredClaims(resume), p), ScoreOf);
    forall i | 0 <= i < |part|
      ensures p(part[i]) && part[i] == ScoreSkill(part[i].name, resume.experience, resume.projects)
    {
      PartMember(ScoredClaims(resume), p, part[i]);
      ScoredRecord(resume, part[i]);
    }
  }

  /** A profile with no claimed skills yields two empty lists. */
  lemma NoClaimsNoRecords(resume: ParsedResume)
    requires resume.languages == [] && resume.frameworks == [] && resume.tools == []
    ensures AnalyzeResume(resume).confirmedSkills == []
    ensures AnalyzeResume(resume).partialSkills == []
  {
    assert ClaimedSkills(resume) == [];
  }
}

=== FILE: resume_parser.dfy ===
/**
 * Skill extraction from resume text: the named entities a language model
 * reports (an arbitrary input here) plus every keyword of a fixed list found
 * in the lower-cased text between regular-expression word boundaries, then
 * stripped and passed through six junk-token rules. The result is a set:
 * the source returns `list(set)`, whose order is hash order.
 */
module ResumeParser {
  import opened Text

  // The keyword list and the blocklist are declared in the rows of the source's
  // layout, so that each row can be reasoned about on its own.

  const KeywordRow1: seq<string> := ["Python", "Java", "React", "JavaScript", "TypeScript", "Node.js"]
  const KeywordRow2: seq<string> := ["AWS", "Docker", "Kubernetes", "SQL", "NoSQL", "MongoDB"]
  const KeywordRow3: seq<string> := ["PostgreSQL", "Git", "CI/CD", "Machine Learning", "Deep Learning"]
  const KeywordRow4: seq<string> := ["TensorFlow", "PyTorch", "Pandas", "NumPy", "Scikit-Learn"]
  const KeywordRow5: seq<string> := ["FastAPI", "Flask", "Django", "HTML", "CSS", "Tailwind"]
  const KeywordRow6: seq<string> := ["Next.js", "GraphQL", "REST API", "Linux", "Bash", "C++", "C#"]

  const Keywords: seq<string> :=
    KeywordRow1 + KeywordRow2 + KeywordRow3 + KeywordRow4 + KeywordRow5 + KeywordRow6

  const Stopwords: set<string> := {
    "in", "a", "and", "to", "of", "for", "with", "the", "on", "at", "by", "from", "or", "an"
  }

  const BlockRow1: set<string> := {"problem", "time", "system", "software", "college", "private", "communication"}
  const BlockRow2: set<string> := {"computer", "science", "engineering", "used", "using", "work", "year", "years"}
  const BlockRow3: set<string> := {"month", "months", "team", "project", "university", "school", "education"}
  const BlockRow4: set<string> := {"cgpa", "gpa", "bachelor", "master", "key", "roles", "responsibilities"}
  const BlockRow5: set<string> := {"technologies", "tools", "languages", "frameworks", "database", "databases"}
  const BlockRow6: set<string> := {"server", "client", "application", "web", "data", "analysis", "analytics"}
  const BlockRow7: set<string> := {"b.tech", "ambassador", "travel", "acted", "cell", "bharuch", "skills"}
  const BlockRow8: set<string> := {"ui", "student", "member", "activities", "board", "council"}

  /** Common words a simple recogniser misreads as skills. */
  const Blocklist: set<string> :=
    BlockRow1 + BlockRow2 + BlockRow3 + BlockRow4 + BlockRow5 + BlockRow6 + BlockRow7 + BlockRow8

  /** Membership in the blocklist, decided row by row. */
  predicate Blocked(w: string) {
    || w in BlockRow1 || w in BlockRow2 || w in BlockRow3 || w in BlockRow4
    || w in BlockRow5 || w in BlockRow6 || w in BlockRow7 || w in BlockRow8
  }

  lemma BlockedIsBlocklist(w: string)
    ensures Blocked(w) <==> w in Blocklist
  {
  }

  /** Position `j` of `t` holds a word character (positions outside `t` do not). */
  predicate WordAt(t: string, j: int) {
    0 <= j < |t| && IsWordChar(t[j])
  }

  /** The regular-expression assertion `\b` at position `j`: word-ness changes there. */
  predicate Boundary(t: string, j: int) {
    WordAt(t, j - 1) != WordAt(t, j)
  }

  /** `re.search(r"\b" + re.escape(kw.lower()) + r"\b", text.lower())` succeeds. */
  predicate KeywordFound(kw: string, text: string) {
    var p := Lower(kw);
    var t := Lower(text);
    exists i | 0 <= i <= |t| - |p| :: OccursAt(t, p, i) && Boundary(t, i) && Boundary(t, i + |p|)
  }

  /** The keyword occurs as a whole token: neither neighbour is a word character. */
  predicate TokenFound(kw: string, text: string) {
    var p := Lower(kw);
    var t := Lower(text);
    exists i | 0 <= i <= |t| - |p| :: OccursAt(t, p, i) && !WordAt(t, i - 1) && !WordAt(t, i + |p|)
  }

  /** Rule 1: shorter than two characters, unless it upper-cases to "C" or "R". */
  predicate TooShort(clean: string) {
    |clean| < 2 && Upper(clean) != "C" && Upper(clean) != "R"
  }

  /** The six filter rules a stripped candidate must pass. */
  predicate Keep(clean: string) {
    && !TooShort(clean)
    && !AllDigits(clean)
    && Lower(clean) !in Stopwords
    && '@' !in clean
    && !Blocked(Lower(clean))
    && WordCount(clean) <= 3
  }

  /** Every keyword found in the text as written, in the keyword list's spelling. */
  function KeywordHits(text: string): (hits: set<string>)
    ensures forall kw :: kw in hits <==> kw in Keywords && KeywordFound(kw, text)
    ensures forall kw :: kw in hits ==> Contains(Lower(text), Lower(kw))
  {
    set kw | kw in Keywords && KeywordFound(kw, text)
  }

  /** Strip every candidate and keep those that pass all six rules; a set, so no duplicates. */
  function CleanSkills(found: set<string>): (skills: set<string>)
    ensures forall s :: s in skills ==> Keep(s) && exists c :: c in found && Strip(c) == s
    ensures forall c :: c in found && Keep(Strip(c)) ==> Strip(c) in skills
    ensures forall s :: s in skills ==> Strip(s) == s
  {
    var skills := set c | c in found && Keep(Strip(c)) :: Strip(c);
    forall s | s in skills
      ensures Strip(s) == s
    {
      StripUnchanged(s);
    }
    skills
  }

  /**
   * `extract_skills` as written: model entities and keyword hits, cleaned.
   * The contract states each filter rule separately.
   */
  function ExtractSkills(entities: set<string>, text: string): (skills: set<string>)
    ensures forall s :: s in skills ==> exists c :: (c in entities || c in KeywordHits(text)) && Strip(c) == s
    ensures forall c :: (c in entities || c in KeywordHits(text)) && Keep(Strip(c)) ==> Strip(c) in skills
    ensures forall s :: s in skills ==> Lower(s) !in Stopwords && Lower(s) !in Blocklist
    ensures forall s :: s in skills ==> '@' !in s && !AllDigits(s) && WordCount(s) <= 3
    ensures forall s :: s in skills ==> |s| >= 2 || s == "C" || s == "c" || s == "R" || s == "r"
  {
    CleanSkillsRules(entities + KeywordHits(text));
    CleanSkills(entities + KeywordHits(text))
  }

  /** Each of the six rules, stated on its own, holds of every cleaned skill. */
  lemma CleanSkillsRules(found: set<string>)
    ensures forall s :: s in CleanSkills(found) ==> Lower(s) !in Stopwords && Lower(s) !in Blocklist
    ensures forall s :: s in CleanSkills(found) ==> '@' !in s && !AllDigits(s) && WordCount(s) <= 3
    ensures forall s :: s in CleanSkills(found) ==> |s| >= 2 || s == "C" || s == "c" || s == "R" || s == "r"
  {
    forall s | s in CleanSkills(found)
      ensures Lower(s) !in Blocklist
    {
      BlockedIsBlocklist(Lower(s));
    }
    forall s | s in CleanSkills(found)
      ensures |s| >= 2 || s == "C" || s == "c" || s == "R" || s == "r"
    {
      ShortSurvivors(s);
    }
  }

  /** A kept string shorter than two characters is one of the single letters c, C, r, R. */
  lemma ShortSurvivors(s: string)
    requires !TooShort(s)
    ensures |s| >= 2 || s == "C" || s == "c" || s == "R" || s == "r"
  {
    if |s| < 2 {
      assert |s| == 1;
      assert Upper(s)[0] == UpperChar(s[0]);
      assert s == [s[0]];
    }
  }

  /** Every keyword standing in the text as a whole token (the corrected matcher), in the keyword list's spelling. */
  function TokenHits(text: string): (hits: set<string>)
    ensures forall kw :: kw in hits <==> kw in Keywords && TokenFound(kw, text)
  {
    set kw | kw in Keywords && TokenFound(kw, text)
  }

  /**
   * Extraction with whole-token keyword matching instead of `\b`: only the
   * keyword detection differs from `ExtractSkills`, the six rules are the same.
   */
  function ExtractSkillsIntended(entities: set<string>, text: string): (skills: set<string>)
    ensures forall s :: s in skills ==> exists c :: (c in entities || c in TokenHits(text)) && Strip(c) == s
    ensures forall c :: (c in entities || c in TokenHits(text)) && Keep(Strip(c)) ==> Strip(c) in skills
    ensures forall s :: s in skills ==> Lower(s) !in Stopwords && Lower(s) !in Blocklist
    ensures forall s :: s in skills ==> '@' !in s && !AllDigits(s) && WordCount(s) <= 3
    ensures forall s :: s in skills ==> |s| >= 2 || s == "C" || s == "c" || s == "R" || s == "r"
    ensures forall kw :: kw in Keywords && TokenFound(kw, text) ==> kw in skills
  {
    KeywordsPass();
    CleanSkillsRules(entities + TokenHits(text));
    CleanSkills(entities + TokenHits(text))
  }

  lemma IsWordLower(c: char)
    ensures IsWordChar(LowerChar(c)) <==> IsWordChar(c)
  {
  }

  /**
   * For a keyword that starts and ends with a word character, `\b` on each side
   * is exactly "the neighbour is not a word character", so the two matchers agree.
   */
  lemma WordEdgedKeywordsAgree(kw: string, text: string)
    requires |kw| > 0 && IsWordChar(kw[0]) && IsWordChar(kw[|kw| - 1])
    ensures KeywordFound(kw, text) <==> TokenFound(kw, text)
  {
    var p := Lower(kw);
    var t := Lower(text);
    IsWordLower(kw[0]);
    IsWordLower(kw[|kw| - 1]);
    forall i | 0 <= i <= |t| - |p| && OccursAt(t, p, i)
      ensures Boundary(t, i) <==> !WordAt(t, i - 1)
      ensures Boundary(t, i + |p|) <==> !WordAt(t, i + |p|)
    {
      assert t[i] == t[i..i + |p|][0] == p[0];
      assert t[i + |p| - 1] == t[i..i + |p|][|p| - 1] == p[|p| - 1];
    }
  }

  /** As written, "C++" standing alone in the text is never found: `\b` after '+' needs a following word character. */
  lemma CPlusPlusMissed()
    ensures !KeywordFound("C++", "C++")
    ensures TokenFound("C++", "C++")
  {
    var t := Lower("C++");
    assert t == "c++";
    assert !Boundary(t, 3);
    assert OccursAt(t, Lower("C++"), 0);
  }

  /**
   * Conversely, `\b` finds "C++" glued to a version number, as in "C++17",
   * where the keyword is not a whole token.
   */
  lemma CPlusPlusVersionFound()
    ensures KeywordFound("C++", "C++17")
    ensures !TokenFound("C++", "C++17")
  {
    var t := Lower("C++17");
    var p := Lower("C++");
    assert t == "c++17" && p == "c++";
    assert OccursAt(t, p, 0) && Boundary(t, 0) && Boundary(t, 3);
    forall i | 0 <= i <= |t| - |p| && OccursAt(t, p, i)
      ensures WordAt(t, i + |p|)
    {
      assert t[i] == 'c';
    }
  }

  /** The same holds for "C#" followed by a comma, as in a skills list. */
  lemma CSharpMissed()
    ensures !KeywordFound("C#", "C#, Go")
    ensures TokenFound("C#", "C#, Go")
  {
    var t := Lower("C#, Go");
    assert t == "c#, go";
    var p := Lower("C#");
    assert p == "c#";
    forall i | 0 <= i <= |t| - |p| && OccursAt(t, p, i)
      ensures i == 0
    {
      assert t[i] == 'c';
    }
    assert !Boundary(t, 2);
    assert OccursAt(t, p, 0);
  }

  /** Under whole-token matching every keyword is found in a text that is the keyword alone. */
  lemma KeywordAloneIsFound(kw: string)
    ensures TokenFound(kw, kw)
  {
    assert OccursAt(Lower(kw), Lower(kw), 0);
  }

  /** Every listed keyword passes all six filter rules unchanged by stripping. */
  lemma KeywordsPass()
    ensures forall kw :: kw in Keywords ==> Strip(kw) == kw && Keep(kw)
  {
    forall kw | kw in Keywords
      ensures Passes(kw)
    {
      KeywordPasses(kw);
    }
  }

  /** A listed keyword passes; found through its row. */
  lemma KeywordPasses(kw: string)
    requires kw in Keywords
    ensures Passes(kw)
  {
    if kw in KeywordRow1 {
      KeywordRow1Passes(kw);
    } else if kw in KeywordRow2 {
      KeywordRow2Passes(kw);
    } else if kw in KeywordRow3 {
      KeywordRow3Passes(kw);
    } else if kw in KeywordRow4 {
      KeywordRow4Passes(kw);
    } else if kw in KeywordRow5 {
      KeywordRow5Passes(kw);
    } else {
      KeywordRow6Passes(kw);
    }
  }

  /** A keyword survives cleaning unchanged. */
  predicate Passes(kw: string) {
    Strip(kw) == kw && Keep(kw)
  }

  lemma KeywordRow1Passes(kw: string)
    requires kw in KeywordRow1
    ensures Passes(kw)
  {
    if kw == "Python" {
      PythonPasses(kw);
    } else if kw == "Java" {
      JavaPasses(kw);
    } else if kw == "React" {
      ReactPasses(kw);
    } else if kw == "JavaScript" {
      JavaScriptPasses(kw);
    } else if kw == "TypeScript" {
      TypeScriptPasses(kw);
    } else {
      NodeJsPasses(kw);
    }
  }

  lemma KeywordRow2Passes(kw: string)
    requires kw in KeywordRow2
    ensures Passes(kw)
  {
    if kw == "AWS" {
      AwsPasses(kw);
    } else if kw == "Docker" {
      DockerPasses(kw);
    } else if kw == "Kubernetes" {
      KubernetesPasses(kw);
    } else if kw == "SQL" {
      SqlPasses(kw);
    } else if kw == "NoSQL" {
      NoSqlPasses(kw);
    } else {
      MongoDbPasses(kw);
    }
  }

  lemma KeywordRow3Passes(kw: string)
    requires kw in KeywordRow3
    ensures Passes(kw)
  {
    if kw == "PostgreSQL" {
      PostgreSqlPasses(kw);
    } else if kw == "Git" {
      GitPasses(kw);
    } else if kw == "CI/CD" {
      CiCdPasses(kw);
    } else if kw == "Machine Learning" {
      MachineLearningPasses(kw);
    } else {
      DeepLearningPasses(kw);
    }
  }

  lemma KeywordRow4Passes(kw: string)
    requires kw in KeywordRow4
    ensures Passes(kw)
  {
    if kw == "TensorFlow" {
      TensorFlowPasses(kw);
    } else if kw == "PyTorch" {
      PyTorchPasses(kw);
    } else if kw == "Pandas" {
      PandasPasses(kw);
    } else if kw == "NumPy" {
      NumPyPasses(kw);
    } else {
      ScikitLearnPasses(kw);
    }
  }

  lemma KeywordRow5Passes(kw: string)
    requires kw in KeywordRow5
    ensures Passes(kw)
  {
    if kw == "FastAPI" {
      FastApiPasses(kw);
    } else if kw == "Flask" {
      FlaskPasses(kw);
    } else if kw == "Django" {
      DjangoPasses(kw);
    } else if kw == "HTML" {
      HtmlPasses(kw);
    } else if kw == "CSS" {
      CssPasses(kw);
    } else {
      TailwindPasses(kw);
    }
  }

  lemma KeywordRow6Passes(kw: string)
    requires kw in KeywordRow6
    ensures Passes(kw)
  {
    if kw == "Next.js" {
      NextJsPasses(kw);
    } else if kw == "GraphQL" {
      GraphQlPasses(kw);
    } else if kw == "REST API" {
      RestApiPasses(kw);
    } else if kw == "Linux" {
      LinuxPasses(kw);
    } else if kw == "Bash" {
      BashPasses(kw);
    } else if kw == "C++" {
      CPlusPlusPasses(kw);
    } else {
      CSharpPasses(kw);
    }
  }

  // One lemma per keyword keeps each literal computation in a proof of its own.
  lemma PythonPasses(kw: string) requires kw == "Python" ensures Passes(kw) { PassesWith("Python", "python", -1); }
  lemma JavaPasses(kw: string) requires kw == "Java" ensures Passes(kw) { PassesWith("Java", "java", -1); }
  lemma ReactPasses(kw: string) requires kw == "React" ensures Passes(kw) { PassesWith("React", "react", -1); }
  lemma JavaScriptPasses(kw: string) requires kw == "JavaScript" ensures Passes(kw) { PassesWith("JavaScript", "javascript", -1); }
  lemma TypeScriptPasses(kw: string) requires kw == "TypeScript" ensures Passes(kw) { PassesWith("TypeScript", "typescript", -1); }
  lemma NodeJsPasses(kw: string) requires kw == "Node.js" ensures Passes(kw) { PassesWith("Node.js", "node.js", -1); }
  lemma AwsPasses(kw: string) requires kw == "AWS" ensures Passes(kw) { PassesWith("AWS", "aws", -1); }
  lemma DockerPasses(kw: string) requires kw == "Docker" ensures Passes(kw) { PassesWith("Docker", "docker", -1); }
  lemma KubernetesPasses(kw: string) requires kw == "Kubernetes" ensures Passes(kw) { PassesWith("Kubernetes", "kubernetes", -1); }
  lemma SqlPasses(kw: string) requires kw == "SQL" ensures Passes(kw) { PassesWith("SQL", "sql", -1); }
  lemma NoSqlPasses(kw: string) requires kw == "NoSQL" ensures Passes(kw) { PassesWith("NoSQL", "nosql", -1); }
  lemma MongoDbPasses(kw: string) requires kw == "MongoDB" ensures Passes(kw) { PassesWith("MongoDB", "mongodb", -1); }
  lemma PostgreSqlPasses(kw: string) requires kw == "PostgreSQL" ensures Passes(kw) { PassesWith("PostgreSQL", "postgresql", -1); }
  lemma GitPasses(kw: string) requires kw == "Git" ensures Passes(kw) { PassesWith("Git", "git", -1); }
  lemma CiCdPasses(kw: string) requires kw == "CI/CD" ensures Passes(kw) { PassesWith("CI/CD", "ci/cd", -1); }
  lemma MachineLearningPasses(kw: string) requires kw == "Machine Learning" ensures Passes(kw) { PassesWith("Machine Learning", "machine learning", 7); }
  lemma DeepLearningPasses(kw: string) requires kw == "Deep Learning" ensures Passes(kw) { PassesWith("Deep Learning", "deep learning", 4); }
  lemma TensorFlowPasses(kw: string) requires kw == "TensorFlow" ensures Passes(kw) { PassesWith("TensorFlow", "tensorflow", -1); }
  lemma PyTorchPasses(kw: string) requires kw == "PyTorch" ensures Passes(kw) { PassesWith("PyTorch", "pytorch", -1); }
  lemma PandasPasses(kw: string) requires kw == "Pandas" ensures Passes(kw) { PassesWith("Pandas", "pandas", -1); }
  lemma NumPyPasses(kw: string) requires kw == "NumPy" ensures Passes(kw) { PassesWith("NumPy", "numpy", -1); }
  lemma ScikitLearnPasses(kw: string) requires kw == "Scikit-Learn" ensures Passes(kw) { PassesWith("Scikit-Learn", "scikit-learn", -1); }
  lemma FastApiPasses(kw: string) requires kw == "FastAPI" ensures Passes(kw) { PassesWith("FastAPI", "fastapi", -1); }
  lemma FlaskPasses(kw: string) requires kw == "Flask" ensures Passes(kw) { PassesWith("Flask", "flask", -1); }
  lemma DjangoPasses(kw: string) requires kw == "Django" ensures Passes(kw) { PassesWith("Django", "django", -1); }
  lemma HtmlPasses(kw: string) requires kw == "HTML" ensures Passes(kw) { PassesWith("HTML", "html", -1); }
  lemma CssPasses(kw: string) requires kw == "CSS" ensures Passes(kw) { PassesWith("CSS", "css", -1); }
  lemma TailwindPasses(kw: string) requires kw == "Tailwind" ensures Passes(kw) { PassesWith("Tailwind", "tailwind", -1); }
  lemma NextJsPasses(kw: string) requires kw == "Next.js" ensures Passes(kw) { PassesWith("Next.js", "next.js", -1); }
  lemma GraphQlPasses(kw: string) requires kw == "GraphQL" ensures Passes(kw) { PassesWith("GraphQL", "graphql", -1); }
  lemma RestApiPasses(kw: string) requires kw == "REST API" ensures Passes(kw) { PassesWith("REST API", "rest api", 4); }
  lemma LinuxPasses(kw: string) requires kw == "Linux" ensures Passes(kw) { PassesWith("Linux", "linux", -1); }
  lemma BashPasses(kw: string) requires kw == "Bash" ensures Passes(kw) { PassesWith("Bash", "bash", -1); }
  lemma CPlusPlusPasses(kw: string) requires kw == "C++" ensures Passes(kw) { PassesWith("C++", "c++", -1); }
  lemma CSharpPasses(kw: string) requires kw == "C#" ensures Passes(kw) { PassesWith("C#", "c#", -1); }

  /**
   * Sufficient conditions for a string to survive the filter unchanged: no
   * white space at its ends, at most one inside (at `spaceAt`, or -1), a
   * non-digit first character, no '@', and a lower-cased form outside both
   * word lists.
   */
  lemma PassesWith(s: string, lower: string, spaceAt: int)
    requires |s| >= 2 && !IsSpace(s[0]) && !IsSpace(s[|s| - 1]) && !IsDigit(s[0]) && '@' !in s
    requires forall i :: 0 <= i < |s| && i != spaceAt ==> !IsSpace(s[i])
    requires Lower(s) == lower && lower !in Stopwords
    requires lower !in BlockRow1 && lower !in BlockRow2 && lower !in BlockRow3 && lower !in BlockRow4
    requires lower !in BlockRow5 && lower !in BlockRow6 && lower !in BlockRow7 && lower !in BlockRow8
    ensures Strip(s) == s && Keep(s)
  {
    StripUnchanged(s);
    AtMostTwoWords(s, spaceAt);
  }

  /** A string with white space at most at one position has at most two words. */
  lemma AtMostTwoWords(s: string, spaceAt: int)
    requires forall i :: 0 <= i < |s| && i != spaceAt ==> !IsSpace(s[i])
    ensures WordCount(s) <= 2
  {
    if 0 <= spaceAt < |s| && IsSpace(s[spaceAt]) {
      var a, b, c := s[..spaceAt], s[spaceAt..spaceAt + 1], s[spaceAt + 1..];
      assert s == a + b + c;
      WordCountAppend(a + b, c);
      WordCountAppend(a, b);
      WordCountNoSpace(a);
      WordCountNoSpace(c);
      assert b == [s[spaceAt]] && [s[spaceAt]][..0] == [];
      assert WordCount(b) == 0;
    } else {
      WordCountNoSpace(s);
    }
  }

  /** A keyword that the as-written matcher finds is always in the output. */
  lemma FoundKeywordKept(entities: set<string>, text: string, kw: string)
    requires kw in Keywords && KeywordFound(kw, text)
    ensures kw in ExtractSkills(entities, text)
  {
    KeywordsPass();
  }
}

=== FILE: roadmap.dfy ===
/**
 * The backend's roadmap endpoint: split a role's required skills into matched
 * and missing by exact-case membership in the user's skills, score the match
 * as an integer percentage, emit one learning step per missing skill (or a
 * single fallback step), and build the user-centred skill graph. Also the
 * default skill list the resume endpoint substitutes for an empty extraction.
 */
module Roadmap {
  import opened Text
  import opened Seqs
  import opened Graph

  const RoleTable: map<string, seq<string>> := map[
    "AI Engineer" := ["Python", "PyTorch", "LangChain", "Vector Databases", "FastAPI"],
    "Data Scientist" := ["Python", "SQL", "Machine Learning", "Pandas", "Statistics"],
    "Full Stack Developer" := ["React", "Node.js", "SQL", "Git", "TypeScript"],
    "DevOps Engineer" := ["AWS", "Docker", "Kubernetes", "Terraform", "Linux"]
  ]

  /** Requirements of a role the table does not list. */
  const DefaultRequirements: seq<string> := ["Python", "Git"]

  /** Skills reported when extraction finds nothing. */
  const FallbackSkills: set<string> := {"Communication", "Teamwork"}

  /** `role_requirements.get(target, ["Python", "Git"])`: never empty, whatever the role. */
  function RoleRequirements(target: string): (required: seq<string>)
    ensures target !in RoleTable ==> required == DefaultRequirements
    ensures target in RoleTable ==> required == RoleTable[target]
    ensures |required| > 0
  {
    if target in RoleTable then RoleTable[target] else DefaultRequirements
  }

  /** No role lists a skill twice, so every required skill yields one graph node of its own. */
  lemma RequirementsDistinct(target: string)
    ensures Distinct(RoleRequirements(target))
    ensures "You" !in RoleRequirements(target)
  {
  }

  /** `set(request.current_skills)`. */
  function CurrentSet(currentSkills: seq<string>): (current: set<string>)
    ensures forall s :: s in current <==> s in currentSkills
  {
    set s | s in currentSkills
  }

  function Held(current: set<string>): string -> bool {
    s => s in current
  }

  function NotHeld(current: set<string>): string -> bool {
    s => s !in current
  }

  /** `[s for s in required if s not in current]`: the unmet requirements, in order. */
  function Missing(required: seq<string>, current: set<string>): (missing: seq<string>)
    ensures |missing| <= |required|
    ensures forall s :: s in missing <==> s in required && s !in current
    ensures missing == Filter(required, NotHeld(current))
  {
    var missing := Filter(required, NotHeld(current));
    assert forall s :: s in required && s !in current ==> s in missing by {
      forall s | s in required && s !in current
        ensures s in missing
      {
        var i :| 0 <= i < |required| && required[i] == s;
      }
    }
    missing
  }

  /** `[s for s in required if s in current]`: the met requirements, in order. */
  function Matched(required: seq<string>, current: set<string>): (matched: seq<string>)
    ensures |matched| <= |required|
    ensures forall s :: s in matched <==> s in required && s in current
    ensures matched == Filter(required, Held(current))
  {
    var matched := Filter(required, Held(current));
    assert forall s :: s in required && s in current ==> s in matched by {
      forall s | s in required && s in current
        ensures s in matched
      {
        var i :| 0 <= i < |required| && required[i] == s;
      }
    }
    matched
  }

  /** Matched and missing split the requirements: each keeps its order and together they hold every requirement once. */
  lemma MatchedMissingPartition(required: seq<string>, current: set<string>)
    ensures multiset(Matched(required, current)) + multiset(Missing(required, current)) == multiset(required)
    ensures forall s :: s in Matched(required, current) <==> s in required && s in current
    ensures forall s :: s in Missing(required, current) <==> s in required && s !in current
  {
    FilterPartition(required, Held(current), NotHeld(current));
  }

  /**
   * `int((matched / total) * 100) if total > 0 else 0`, modelled as the
   * integer floor of 100·matched/total.
   */
  function MatchScore(matched: nat, total: nat): (score: nat)
    ensures total == 0 ==> score == 0
    ensures total > 0 ==> score * total <= 100 * matched < (score + 1) * total
    ensures matched <= total ==> score <= 100
    ensures 0 < total && matched <= total ==> (score == 100 <==> matched == total)
  {
    if total > 0 then
      var score := (100 * matched) / total;
      FloorBounds(matched, total, score);
      score
    else
      0
  }

  lemma MulCancelLe(a: int, b: int, t: int)
    requires t > 0 && a * t <= b * t
    ensures a <= b
  {
  }

  lemma MulCancelLt(a: int, b: int, t: int)
    requires t > 0 && a * t < b * t
    ensures a < b
  {
  }

  lemma DivBounds(n: nat, t: nat)
    requires t > 0
    ensures (n / t) * t <= n < (n / t + 1) * t
  {
    var q, r := n / t, n % t;
    assert n == q * t + r;
    assert (q + 1) * t == q * t + t;
  }

  /** The floor of 100·matched/total is at most 100, and reaches 100 only when matched == total. */
  lemma FloorBounds(matched: nat, total: nat, score: nat)
    requires total > 0 && score == (100 * matched) / total
    ensures score * total <= 100 * matched < (score + 1) * total
    ensures matched <= total ==> score <= 100
    ensures matched <= total ==> (score == 100 <==> matched == total)
  {
    DivBounds(100 * matched, total);
    if matched < total {
      MulCancelLt(score, 100, total);
    } else if matched == total {
      MulCancelLe(score, 100, total);
      MulCancelLt(100, score + 1, total);
    }
  }

  datatype Step = Step(id: nat, title: string, timeline: string, duration: string, difficulty: string, reason: string)

  const LearnPrefix := "Learn "

  /** The step for the i-th missing skill (counting from 0). */
  function LearnStep(i: nat, skill: string, target: string): Step {
    Step(i + 1, LearnPrefix + skill, "Week " + NatToString(i + 1) + "-" + NatToString(i + 2),
         "10-15 Hours", "Medium", "Essential for " + target + " roles.")
  }

  const AdvancedProjects: Step :=
    Step(1, "Advanced Projects", "Week 1-4", "40 Hours", "Hard", "You have the core skills! Build a portfolio piece.")

  /** One step per missing skill, in order, numbered from 1; the single fallback step when nothing is missing. */
  function Steps(missing: seq<string>, target: string): (roadmap: seq<Step>)
    ensures |roadmap| == if |missing| == 0 then 1 else |missing|
    ensures |missing| == 0 ==> roadmap == [AdvancedProjects]
    ensures forall i :: 0 <= i < |missing| ==> roadmap[i] == LearnStep(i, missing[i], target)
  {
    if |missing| == 0 then [AdvancedProjects]
    else seq(|missing|, i requires 0 <= i < |missing| => LearnStep(i, missing[i], target))
  }

  /** The skill a step title names: the title after "Learn ". */
  function TitleSkill(title: string): string {
    if |LearnPrefix| <= |title| then title[|LearnPrefix|..] else title
  }

  /** The roadmap can be read back: step i has id i+1 and its title names the i-th missing skill. */
  lemma StepsRecoverMissing(missing: seq<string>, target: string)
    requires |missing| > 0
    ensures forall i :: 0 <= i < |missing| ==> Steps(missing, target)[i].id == i + 1
    ensures Map((st: Step) => TitleSkill(st.title), Steps(missing, target)) == missing
  {
    var r := Steps(missing, target);
    var titles := Map((st: Step) => TitleSkill(st.title), r);
    forall i | 0 <= i < |missing|
      ensures titles[i] == missing[i]
    {
      assert r[i].title == LearnPrefix + missing[i];
    }
  }

  /** Digits followed by a dash: the digit run is determined by the whole string. */
  lemma {:induction false} DigitRunDetermined(a: string, b: string, c: string, d: string)
    requires forall i :: 0 <= i < |a| ==> IsDigit(a[i])
    requires forall i :: 0 <= i < |c| ==> IsDigit(c[i])
    requires a + "-" + b == c + "-" + d
    ensures a == c
  {
    var x := a + "-" + b;
    assert x == c + "-" + d;
    assert x[|a|] == '-' && x[|c|] == '-';
    assert forall k :: 0 <= k < |a| ==> x[k] == a[k];
    assert forall k :: 0 <= k < |c| ==> x[k] == c[k];
    assert |a| == |c|;
    assert a == x[..|a|] == c;
  }

  /** Different steps get different timelines. */
  lemma StepTimelinesDistinct(missing: seq<string>, target: string)
    ensures forall i, j :: 0 <= i < j < |missing| ==> Steps(missing, target)[i].timeline != Steps(missing, target)[j].timeline
  {
    var r := Steps(missing, target);
    forall i, j | 0 <= i < j < |missing|
      ensures r[i].timeline != r[j].timeline
    {
      if r[i].timeline == r[j].timeline {
        var a, b := NatToString(i + 1), NatToString(i + 2);
        var c, d := NatToString(j + 1), NatToString(j + 2);
        assert r[i].timeline == "Week " + (a + "-" + b);
        assert r[j].timeline == "Week " + (c + "-" + d);
        assert a + "-" + b == (r[i].timeline)[5..] == c + "-" + d;
        DigitRunDetermined(a, b, c, d);
        NatToStringInjective(i + 1, j + 1);
      }
    }
  }

  const YouNode: Node := Node("You", "You", "user", 20)

  /** `links.append({"source": "You", "target": s, "value": 5})` for each matched skill. */
  function YouLinks(matched: seq<string>): (links: seq<Link>)
    ensures |links| == |matched|
    ensures forall s :: s in matched ==> Link("You", s, 5) in links
    ensures forall l :: l in links ==> l.source == "You" && l.target in matched && l.value == 5
  {
    if |matched| == 0 then []
    else
      var rest := YouLinks(matched[1..]);
      assert forall s :: s in matched ==> s == matched[0] || s in matched[1..];
      [Link("You", matched[0], 5)] + rest
  }

  /** `links.append({"source": s, "target": "You", "value": 1})` for each missing skill. */
  function ToYouLinks(missing: seq<string>): (links: seq<Link>)
    ensures |links| == |missing|
    ensures forall s :: s in missing ==> Link(s, "You", 1) in links
    ensures forall l :: l in links ==> l.target == "You" && l.source in missing && l.value == 1
  {
    if |missing| == 0 then []
    else
      var rest := ToYouLinks(missing[1..]);
      assert forall s :: s in missing ==> s == missing[0] || s in missing[1..];
      [Link(missing[0], "You", 1)] + rest
  }

  /** The user node, then one "skill" node per matched and one "target" node per missing skill. */
  function RoadmapGraph(matched: seq<string>, missing: seq<string>): (g: GraphData)
    ensures |g.nodes| == 1 + |matched| + |missing|
    ensures g.nodes[0] == YouNode
    ensures forall i :: 0 <= i < |matched| ==> g.nodes[1 + i] == SkillNamed(matched[i], "skill", 10)
    ensures forall i :: 0 <= i < |missing| ==> g.nodes[1 + |matched| + i] == SkillNamed(missing[i], "target", 10)
    ensures g.links == YouLinks(matched) + ToYouLinks(missing)
  {
    var skillNodes := Map((s: string) => SkillNamed(s, "skill", 10), matched);
    var targetNodes := Map((s: string) => SkillNamed(s, "target", 10), missing);
    GraphData([YouNode] + skillNodes + targetNodes, YouLinks(matched) + ToYouLinks(missing))
  }

  datatype Response = Response(matchScore: nat, missingSkills: seq<string>, roadmap: seq<Step>, graphData: GraphData)

  /** `generate_roadmap`: the missing skills in requirement order, one step each (or the fallback), one node per requirement. */
  function GenerateRoadmap(target: string, currentSkills: seq<string>): (r: Response)
    ensures forall s :: s in r.missingSkills <==> s in RoleRequirements(target) && s !in currentSkills
    ensures r.missingSkills == Missing(RoleRequirements(target), CurrentSet(currentSkills))
    ensures r.roadmap == Steps(r.missingSkills, target)
    ensures |r.roadmap| == if |r.missingSkills| == 0 then 1 else |r.missingSkills|
    ensures |r.graphData.nodes| == 1 + |RoleRequirements(target)|
  {
    var required := RoleRequirements(target);
    var current := CurrentSet(currentSkills);
    var missing := Missing(required, current);
    var matched := Matched(required, current);
    MatchedMissingPartition(required, current);
    assert |multiset(matched)| + |multiset(missing)| == |multiset(required)|;
    Response(MatchScore(|matched|, |required|), missing, Steps(missing, target), RoadmapGraph(matched, missing))
  }

  /** The response's parts, named. */
  lemma ResponseIs(target: string, currentSkills: seq<string>)
    ensures var required := RoleRequirements(target);
      var current := CurrentSet(currentSkills);
      var r := GenerateRoadmap(target, currentSkills);
      && r.matchScore == MatchScore(|Matched(required, current)|, |required|)
      && r.graphData == RoadmapGraph(Matched(required, current), Missing(required, current))
      && r.roadmap == Steps(Missing(required, current), target)
  {
  }

  /** Matched and missing skills partition the requirements. */
  lemma RoadmapPartition(target: string, currentSkills: seq<string>)
    ensures var required := RoleRequirements(target);
      multiset(Matched(required, CurrentSet(currentSkills))) + multiset(GenerateRoadmap(target, currentSkills).missingSkills)
        == multiset(required)
  {
    MatchedMissingPartition(RoleRequirements(target), CurrentSet(currentSkills));
  }

  /** The score is the floor of the matched percentage, at most 100, and 100 exactly when nothing is missing. */
  lemma RoadmapScore(target: string, currentSkills: seq<string>)
    ensures var required := RoleRequirements(target);
      var r := GenerateRoadmap(target, currentSkills);
      var matched := |required| - |r.missingSkills|;
      && r.matchScore * |required| <= 100 * matched < (r.matchScore + 1) * |required|
      && r.matchScore <= 100
      && (r.matchScore == 100 <==> |r.missingSkills| == 0)
  {
    var required := RoleRequirements(target);
    var current := CurrentSet(currentSkills);
    MatchedMissingPartition(required, current);
    var m, n := Matched(required, current), Missing(required, current);
    assert |multiset(m)| + |multiset(n)| == |multiset(required)|;
    ResponseIs(target, currentSkills);
  }

  /** Links run from the user to each held skill and from each missing skill to the user. */
  lemma RoadmapLinks(target: string, currentSkills: seq<string>)
    ensures forall l :: l in GenerateRoadmap(target, currentSkills).graphData.links ==>
      || (l.source == "You" && l.target in currentSkills && l.value == 5)
      || (l.target == "You" && l.source !in currentSkills && l.value == 1)
  {
    var required := RoleRequirements(target);
    var current := CurrentSet(currentSkills);
    MatchedMissingPartition(required, current);
    ResponseIs(target, currentSkills);
  }

  /** Holding every required skill scores 100 and yields only the fallback step. */
  lemma AllHeldScoresFull(target: string, currentSkills: seq<string>)
    requires forall s :: s in RoleRequirements(target) ==> s in currentSkills
    ensures GenerateRoadmap(target, currentSkills).matchScore == 100
    ensures GenerateRoadmap(target, currentSkills).roadmap == [AdvancedProjects]
  {
    var r := GenerateRoadmap(target, currentSkills);
    RoadmapScore(target, currentSkills);
    if |r.missingSkills| > 0 {
      assert false;
    }
  }

  /** Holding none of the required skills scores 0, with one step per requirement. */
  lemma NoneHeldScoresZero(target: string, currentSkills: seq<string>)
    requires forall s :: s in RoleRequirements(target) ==> s !in currentSkills
    ensures GenerateRoadmap(target, currentSkills).matchScore == 0
    ensures GenerateRoadmap(target, currentSkills).missingSkills == RoleRequirements(target)
  {
    var required := RoleRequirements(target);
    var current := CurrentSet(currentSkills);
    MissingAll(required, current);
    var r := GenerateRoadmap(target, currentSkills);
    assert r.missingSkills == required;
    RoadmapScore(target, currentSkills);
    MulCancelLe(r.matchScore, 0, |required|);
  }

  lemma {:induction false} MissingAll(required: seq<string>, current: set<string>)
    requires forall s :: s in required ==> s !in current
    ensures Missing(required, current) == required
  {
    if |required| > 0 {
      MissingAll(required[1..], current);
      assert required == [required[0]] + required[1..];
    }
  }

  /** `analyze_resume`'s substitution: an empty extraction reports the two default skills. */
  function DetectedSkills(extracted: set<string>): (skills: set<string>)
    ensures skills != {}
    ensures extracted != {} ==> skills == extracted
    ensures extracted == {} ==> skills == FallbackSkills
  {
    if extracted == {} then
      assert "Teamwork" in FallbackSkills;
      FallbackSkills
    else extracted
  }
}

=== FILE: seqs.dfy ===
/**
 * Order-preserving filters, maps and first-occurrence de-duplication over
 * sequences, with the multiset facts the components need to state that
 * their outputs partition their inputs.
 */
module Seqs {

  /** The elements of `s` satisfying `p`, in their original order (`Array.prototype.filter`, a list comprehension with `if`). */
  function Filter<T(==)>(s: seq<T>, p: T -> bool): (r: seq<T>)
    ensures |r| <= |s|
    ensures forall i :: 0 <= i < |r| ==> p(r[i]) && r[i] in s
    ensures forall i :: 0 <= i < |s| && p(s[i]) ==> s[i] in r
  {
    if |s| == 0 then [] else (if p(s[0]) then [s[0]] else []) + Filter(s[1..], p)
  }

  function Map<T, U>(f: T -> U, s: seq<T>): (r: seq<U>)
    ensures |r| == |s|
    ensures forall i :: 0 <= i < |s| ==> r[i] == f(s[i])
  {
    if |s| == 0 then [] else [f(s[0])] + Map(f, s[1..])
  }

  predicate Distinct<T(==)>(s: seq<T>) {
    forall i, j :: 0 <= i < j < |s| ==> s[i] != s[j]
  }

  /** The position of the first occurrence of `x` in `s`. */
  function FirstIndex<T(==)>(s: seq<T>, x: T): (i: nat)
    requires x in s
    ensures i < |s| && s[i] == x
    ensures forall k :: 0 <= k < i ==> s[k] != x
  {
    if x in s[..|s| - 1] then FirstIndex(s[..|s| - 1], x) else |s| - 1
  }

  /** Keep the first occurrence of each value, in order of first appearance (a JavaScript `Set` built from a list). */
  function Dedup<T(==)>(s: seq<T>): (r: seq<T>)
    ensures Distinct(r)
    ensures forall i :: 0 <= i < |r| ==> r[i] in s
    ensures forall i :: 0 <= i < |s| ==> s[i] in r
    ensures |r| <= |s|
  {
    if |s| == 0 then []
    else
      var d := Dedup(s[..|s| - 1]);
      DedupMembersStep(s, d);
      if s[|s| - 1] in d then d else d + [s[|s| - 1]]
  }

  /** Extending `s` by one element keeps the prefix's de-duplication distinct and exact in its elements. */
  lemma DedupMembersStep<T>(s: seq<T>, d: seq<T>)
    requires |s| > 0 && Distinct(d) && |d| <= |s| - 1
    requires forall i :: 0 <= i < |d| ==> d[i] in s[..|s| - 1]
    requires forall i :: 0 <= i < |s| - 1 ==> s[i] in d
    ensures var r := if s[|s| - 1] in d then d else d + [s[|s| - 1]];
      && Distinct(r) && |r| <= |s|
      && (forall i :: 0 <= i < |r| ==> r[i] in s)
      && (forall i :: 0 <= i < |s| ==> s[i] in r)
  {
    var prefix := s[..|s| - 1];
    var x := s[|s| - 1];
    assert s == prefix + [x];
    forall i | 0 <= i < |d|
      ensures d[i] in s
    {
      assert d[i] in prefix;
    }
    if x !in d {
      var r := d + [x];
      forall i, j | 0 <= i < j < |r|
        ensures r[i] != r[j]
      {
        if j < |d| {
          assert r[i] == d[i] && r[j] == d[j];
        } else {
          assert r[i] == d[i] && r[j] == x;
        }
      }
      forall i | 0 <= i < |s|
        ensures s[i] in r
      {
        if i < |s| - 1 {
          assert s[i] in d;
        }
      }
    }
  }

  /** The de-duplicated list holds the values in the order of their first occurrence in the input. */
  lemma {:induction false} DedupFirstAppearanceOrder<T>(s: seq<T>)
    ensures forall i, j :: 0 <= i < j < |Dedup(s)| ==> FirstIndex(s, Dedup(s)[i]) < FirstIndex(s, Dedup(s)[j])
  {
    if |s| > 0 {
      DedupFirstAppearanceOrder(s[..|s| - 1]);
      DedupOrderStep(s, Dedup(s[..|s| - 1]));
    }
  }

  /** Extending `s` by one element keeps the first-appearance order of the prefix's de-duplication. */
  lemma DedupOrderStep<T>(s: seq<T>, d: seq<T>)
    requires |s| > 0
    requires forall i :: 0 <= i < |d| ==> d[i] in s[..|s| - 1]
    requires forall i :: 0 <= i < |s| - 1 ==> s[i] in d
    requires forall i, j :: 0 <= i < j < |d| ==> FirstIndex(s[..|s| - 1], d[i]) < FirstIndex(s[..|s| - 1], d[j])
    ensures var r := if s[|s| - 1] in d then d else d + [s[|s| - 1]];
      forall i, j :: 0 <= i < j < |r| ==> FirstIndex(s, r[i]) < FirstIndex(s, r[j])
  {
    var prefix := s[..|s| - 1];
    var x := s[|s| - 1];
    forall i | 0 <= i < |d|
      ensures d[i] in s && FirstIndex(s, d[i]) == FirstIndex(prefix, d[i]) < |s| - 1
    {
    }
    if x !in d {
      assert x !in prefix;
      assert FirstIndex(s, x) == |s| - 1;
    }
  }

  /** A filter and its complement split the sequence into two parts whose multisets add up to the whole. */
  lemma {:induction false} FilterPartition<T>(s: seq<T>, p: T -> bool, q: T -> bool)
    requires forall x :: q(x) == !p(x)
    ensures multiset(Filter(s, p)) + multiset(Filter(s, q)) == multiset(s)
  {
    if |s| > 0 {
      FilterPartition(s[1..], p, q);
      assert s == [s[0]] + s[1..];
    }
  }

  /** `x` satisfies exactly one of the three predicates. */
  predicate ExactlyOne<T>(x: T, p: T -> bool, q: T -> bool, r: T -> bool) {
    (p(x) && !q(x) && !r(x)) || (!p(x) && q(x) && !r(x)) || (!p(x) && !q(x) && r(x))
  }

  /** Filtering a sequence with a known first element. */
  lemma FilterCons<T>(x: T, rest: seq<T>, p: T -> bool)
    ensures Filter([x] + rest, p) == (if p(x) then [x] else []) + Filter(rest, p)
  {
    assert ([x] + rest)[1..] == rest;
  }

  /** Moving one part to the front of a three-way union. */
  lemma MultisetShift<T>(x: multiset<T>, a: multiset<T>, b: multiset<T>, c: multiset<T>)
    ensures (x + a) + b + c == x + a + b + c
    ensures a + (x + b) + c == x + a + b + c
    ensures a + b + (x + c) == x + a + b + c
  {
  }

  /** Three predicates of which every element satisfies exactly one split the sequence three ways. */
  lemma {:induction false} FilterPartition3<T>(s: seq<T>, p: T -> bool, q: T -> bool, r: T -> bool)
    requires forall i :: 0 <= i < |s| ==> ExactlyOne(s[i], p, q, r)
    ensures multiset(Filter(s, p)) + multiset(Filter(s, q)) + multiset(Filter(s, r)) == multiset(s)
  {
    if |s| > 0 {
      var x, rest := s[0], s[1..];
      assert forall i :: 0 <= i < |rest| ==> rest[i] == s[i + 1];
      FilterPartition3(rest, p, q, r);
      assert s == [x] + rest;
      Partition3Step(x, rest, p, q, r);
    }
  }

  /** The inductive step of `FilterPartition3`: one more element joins exactly one part. */
  lemma Partition3Step<T>(x: T, rest: seq<T>, p: T -> bool, q: T -> bool, r: T -> bool)
    requires ExactlyOne(x, p, q, r)
    requires multiset(Filter(rest, p)) + multiset(Filter(rest, q)) + multiset(Filter(rest, r)) == multiset(rest)
    ensures multiset(Filter([x] + rest, p)) + multiset(Filter([x] + rest, q)) + multiset(Filter([x] + rest, r)) == multiset([x] + rest)
  {
    FilterCons(x, rest, p);
    FilterCons(x, rest, q);
    FilterCons(x, rest, r);
    var mp, mq, mr := multiset(Filter(rest, p)), multiset(Filter(rest, q)), multiset(Filter(rest, r));
    assert multiset([x] + rest) == multiset{x} + multiset(rest);
    MultisetShift(multiset{x}, mp, mq, mr);
  }

  /** Filtering keeps nothing when no element satisfies the predicate. */
  lemma {:induction false} NoneSatisfy<T>(s: seq<T>, p: T -> bool)
    requires forall i :: 0 <= i < |s| ==> !p(s[i])
    ensures Filter(s, p) == []
  {
    if |s| > 0 {
      NoneSatisfy(s[1..], p);
    }
  }

  /** Filtering distributes over concatenation. */
  lemma {:induction false} FilterAppend<T>(a: seq<T>, b: seq<T>, p: T -> bool)
    ensures Filter(a + b, p) == Filter(a, p) + Filter(b, p)
  {
    if |a| == 0 {
      assert a + b == b;
    } else {
      assert (a + b)[1..] == a[1..] + b;
      FilterAppend(a[1..], b, p);
    }
  }

  /** A one-element sequence is kept whole or dropped whole; with `FilterAppend` this fixes the result on every input. */
  lemma FilterSingleton<T>(x: T, p: T -> bool)
    ensures Filter([x], p) == (if p(x) then [x] else [])
  {
    assert [x][1..] == [];
  }
}

=== FILE: skill_gap.dfy ===
/**
 * The skill-gap analyser: every role requirement the user does not hold
 * (compared case-insensitively) becomes a "Missing" gap record carrying its
 * unmet prerequisites ("blockers") and a criticality score, and the records
 * are returned in non-increasing order of criticality.
 */
module SkillGap {
  import opened Text
  import opened Seqs
  import opened Sorting

  /** A catalog entry; an absent prerequisites field reads as the empty list, an absent difficulty as "". */
  datatype CatalogEntry = CatalogEntry(name: string, difficulty: string, prerequisites: seq<string>)

  /** A user skill; only its name is read here. */
  datatype UserSkill = UserSkill(name: string, confidence: string)

  /** A role requirement; an absent reason reads as "". */
  datatype Requirement = Requirement(name: string, reason: string)

  datatype GapRecord = GapRecord(
    name: string,
    status: string,
    reason: string,
    difficulty: string,
    blockers: seq<string>,
    criticalityScore: int)

  /** The catalog keyed by lower-cased skill name. */
  type Catalog = map<string, CatalogEntry>

  const BaseCriticality := 50
  const CriticalBonus := 30
  const BlockerBonus := 20
  const CriticalMarker := "Critical"
  const DefaultReason := "Required for this role."
  const UnknownDifficulty := "Unknown"
  const MissingStatus := "Missing"

  /** Index of the last entry whose lower-cased name is `k`, or -1 when there is none. */
  function LastIndex(entries: seq<CatalogEntry>, k: string): (i: int)
    ensures -1 <= i < |entries|
    ensures i >= 0 ==> Lower(entries[i].name) == k
    ensures forall j :: i < j < |entries| ==> Lower(entries[j].name) != k
  {
    if |entries| == 0 then -1
    else if Lower(entries[|entries| - 1].name) == k then |entries| - 1
    else LastIndex(entries[..|entries| - 1], k)
  }

  /**
   * Key every entry by its lower-cased name, left to right, so a later entry
   * whose name lower-cases to the same key replaces an earlier one.
   */
  function BuildCatalog(entries: seq<CatalogEntry>): (db: Catalog)
    ensures forall k :: k in db ==> Lower(db[k].name) == k
    ensures forall k :: k in db ==> db[k] in entries
  {
    if |entries| == 0 then map[]
    else
      var last := entries[|entries| - 1];
      var prefix := entries[..|entries| - 1];
      assert forall e :: e in prefix ==> e in entries;
      BuildCatalog(prefix)[Lower(last.name) := last]
  }

  /** Each key of the catalog holds the last entry with that key, and only keys of some entry are present. */
  lemma {:induction false} CatalogKeepsLastEntry(entries: seq<CatalogEntry>)
    ensures forall k :: k in BuildCatalog(entries) <==> LastIndex(entries, k) >= 0
    ensures forall k :: k in BuildCatalog(entries) ==> BuildCatalog(entries)[k] == entries[LastIndex(entries, k)]
  {
    if |entries| > 0 {
      var prefix := entries[..|entries| - 1];
      CatalogKeepsLastEntry(prefix);
      assert forall i :: 0 <= i < |prefix| ==> prefix[i] == entries[i];
    }
  }

  /** Every entry's key is in the catalog. */
  lemma CatalogHasEveryKey(entries: seq<CatalogEntry>)
    ensures forall i :: 0 <= i < |entries| ==> Lower(entries[i].name) in BuildCatalog(entries)
  {
    CatalogKeepsLastEntry(entries);
    forall i | 0 <= i < |entries|
      ensures LastIndex(entries, Lower(entries[i].name)) >= 0
    {
    }
  }

  /** With two entries of the same key, the second one is what the catalog keeps. */
  lemma LastWriteWins(first: CatalogEntry, second: CatalogEntry)
    requires Lower(first.name) == Lower(second.name)
    ensures BuildCatalog([first, second]) == map[Lower(second.name) := second]
  {
    assert [first, second][..1] == [first];
    assert [first][..0] == [];
    assert BuildCatalog([first]) == map[Lower(first.name) := first];
    assert BuildCatalog([first, second]) == BuildCatalog([first])[Lower(second.name) := second];
  }

  /** The user's skill names, lower-cased. */
  function HeldNames(userSkills: seq<UserSkill>): (held: set<string>)
    ensures forall i :: 0 <= i < |userSkills| ==> Lower(userSkills[i].name) in held
    ensures forall n :: n in held ==> exists i :: 0 <= i < |userSkills| && Lower(userSkills[i].name) == n
    ensures forall n :: n in held ==> Lower(n) == n
  {
    forall i | 0 <= i < |userSkills|
      ensures Lower(Lower(userSkills[i].name)) == Lower(userSkills[i].name)
    {
      LowerIdempotent(userSkills[i].name);
    }
    set i | 0 <= i < |userSkills| :: Lower(userSkills[i].name)
  }

  /** The user holds `name` when some user skill has the same lower-cased name. */
  predicate Holds(userSkills: seq<UserSkill>, name: string) {
    Lower(name) in HeldNames(userSkills)
  }

  /** The test "the user does not hold this skill". */
  function Lacks(userSkills: seq<UserSkill>): string -> bool {
    (p: string) => !Holds(userSkills, p)
  }

  /** The catalog's prerequisites of `name` that the user does not hold, in catalog order; empty for uncatalogued skills. */
  function Blockers(db: Catalog, userSkills: seq<UserSkill>, name: string): (blockers: seq<string>)
    ensures Lower(name) !in db ==> blockers == []
    ensures Lower(name) in db ==> blockers == Filter(db[Lower(name)].prerequisites, Lacks(userSkills))
    ensures forall i :: 0 <= i < |blockers| ==> !Holds(userSkills, blockers[i])
    ensures Lower(name) in db ==> forall p :: p in db[Lower(name)].prerequisites && !Holds(userSkills, p) ==> p in blockers
    ensures Lower(name) in db ==> forall i :: 0 <= i < |blockers| ==> blockers[i] in db[Lower(name)].prerequisites
  {
    if Lower(name) in db then
      var prerequisites := db[Lower(name)].prerequisites;
      var blockers := Filter(prerequisites, Lacks(userSkills));
      assert forall p :: p in prerequisites && !Holds(userSkills, p) ==> p in blockers by {
        forall p | p in prerequisites && !Holds(userSkills, p)
          ensures p in blockers
        {
          var i :| 0 <= i < |prerequisites| && prerequisites[i] == p;
        }
      }
      blockers
    else []
  }

  /** Base 50, plus 30 when the reason contains "Critical" (case-sensitive), plus 20 when any blocker exists. */
  function Criticality(reason: string, blockers: seq<string>): (score: int)
    ensures score == 50 || score == 70 || score == 80 || score == 100
    ensures score >= 70 <==> Contains(reason, CriticalMarker) || |blockers| > 0
    ensures score == 100 <==> Contains(reason, CriticalMarker) && |blockers| > 0
    ensures score == 50 <==> !Contains(reason, CriticalMarker) && |blockers| == 0
    ensures score == 80 <==> Contains(reason, CriticalMarker) && |blockers| == 0
  {
    BaseCriticality
    + (if Contains(reason, CriticalMarker) then CriticalBonus else 0)
    + (if |blockers| > 0 then BlockerBonus else 0)
  }

  /** The score depends on whether there are blockers, not on how many. */
  lemma BlockerCountIrrelevant(reason: string, a: seq<string>, b: seq<string>)
    requires |a| > 0 && |b| > 0
    ensures Criticality(reason, a) == Criticality(reason, b)
  {
  }

  /** The gap record for one missing requirement. */
  function MakeGap(db: Catalog, userSkills: seq<UserSkill>, req: Requirement): (g: GapRecord)
    ensures g.name == req.name && g.status == MissingStatus
    ensures g.reason == (if req.reason == "" then DefaultReason else req.reason)
    ensures Lower(req.name) in db && db[Lower(req.name)].difficulty != "" ==> g.difficulty == db[Lower(req.name)].difficulty
    ensures Lower(req.name) !in db || db[Lower(req.name)].difficulty == "" ==> g.difficulty == UnknownDifficulty
    ensures g.blockers == Blockers(db, userSkills, req.name)
    ensures g.criticalityScore == Criticality(req.reason, g.blockers)
  {
    var key := Lower(req.name);
    var blockers := Blockers(db, userSkills, req.name);
    GapRecord(
      req.name,
      MissingStatus,
      if req.reason == "" then DefaultReason else req.reason,
      if key in db && db[key].difficulty != "" then db[key].difficulty else UnknownDifficulty,
      blockers,
      Criticality(req.reason, blockers))
  }

  /** One gap record per requirement the user does not hold, in requirement order (duplicates included). */
  function Gaps(db: Catalog, userSkills: seq<UserSkill>, reqs: seq<Requirement>): (gaps: seq<GapRecord>)
    ensures |gaps| <= |reqs|
    ensures forall i :: 0 <= i < |gaps| ==> gaps[i].status == MissingStatus && !Holds(userSkills, gaps[i].name)
  {
    if |reqs| == 0 then []
    else
      (if Holds(userSkills, reqs[0].name) then [] else [MakeGap(db, userSkills, reqs[0])])
      + Gaps(db, userSkills, reqs[1..])
  }

  /** Requirements the user does not hold. */
  function Unheld(userSkills: seq<UserSkill>, reqs: seq<Requirement>): seq<Requirement> {
    Filter(reqs, (r: Requirement) => !Holds(userSkills, r.name))
  }

  /** The gap list is exactly the unheld requirements, each turned into its record. */
  lemma {:induction false} GapsAreUnheld(db: Catalog, userSkills: seq<UserSkill>, reqs: seq<Requirement>)
    ensures |Gaps(db, userSkills, reqs)| == |Unheld(userSkills, reqs)|
    ensures forall i :: 0 <= i < |Gaps(db, userSkills, reqs)| ==>
      Gaps(db, userSkills, reqs)[i] == MakeGap(db, userSkills, Unheld(userSkills, reqs)[i])
  {
    if |reqs| > 0 {
      GapsAreUnheld(db, userSkills, reqs[1..]);
    }
  }

  /** A held requirement never yields a record, and every record names an unheld requirement. */
  lemma {:induction false} GapsNeverHeld(db: Catalog, userSkills: seq<UserSkill>, reqs: seq<Requirement>)
    ensures forall i :: 0 <= i < |Gaps(db, userSkills, reqs)| ==>
      !Holds(userSkills, Gaps(db, userSkills, reqs)[i].name)
      && exists j :: 0 <= j < |reqs| && reqs[j].name == Gaps(db, userSkills, reqs)[i].name
  {
    GapsAreUnheld(db, userSkills, reqs);
    var gaps := Gaps(db, userSkills, reqs);
    var unheld := Unheld(userSkills, reqs);
    forall i | 0 <= i < |gaps|
      ensures !Holds(userSkills, gaps[i].name) && exists j :: 0 <= j < |reqs| && reqs[j].name == gaps[i].name
    {
      assert unheld[i] in reqs;
      var j :| 0 <= j < |reqs| && reqs[j] == unheld[i];
    }
  }

  function CriticalityOf(g: GapRecord): int {
    g.criticalityScore
  }

  /**
   * The analyser's result: the gap records sorted by non-increasing
   * criticality, a stable permutation of the records in requirement order.
   */
  function AnalyzeSkillGap(db: Catalog, userSkills: seq<UserSkill>, reqs: seq<Requirement>): (result: seq<GapRecord>)
    ensures SortedDesc(result, CriticalityOf)
    ensures multiset(result) == multiset(Gaps(db, userSkills, reqs))
    ensures forall k :: KeyFilter(result, CriticalityOf, k) == KeyFilter(Gaps(db, userSkills, reqs), CriticalityOf, k)
    ensures |result| == |Unheld(userSkills, reqs)|
    ensures |reqs| == 0 ==> result == []
  {
    GapsAreUnheld(db, userSkills, reqs);
    SortDesc(Gaps(db, userSkills, reqs), CriticalityOf)
  }

  /** Every record in the result is a "Missing" record for an unheld requirement, with its blockers and a score from the four values. */
  lemma AnalyzeSkillGapRecords(db: Catalog, userSkills: seq<UserSkill>, reqs: seq<Requirement>)
    ensures forall g :: g in AnalyzeSkillGap(db, userSkills, reqs) ==>
      && !Holds(userSkills, g.name)
      && (exists j :: 0 <= j < |reqs| && reqs[j].name == g.name)
      && g.status == MissingStatus
      && g.blockers == Blockers(db, userSkills, g.name)
      && (g.criticalityScore == 50 || g.criticalityScore == 70 || g.criticalityScore == 80 || g.criticalityScore == 100)
  {
    var gaps := Gaps(db, userSkills, reqs);
    var result := AnalyzeSkillGap(db, userSkills, reqs);
    GapsAreUnheld(db, userSkills, reqs);
    GapsNeverHeld(db, userSkills, reqs);
    forall g | g in result
      ensures g in gaps
    {
      assert g in multiset(gaps);
    }
  }

  /** A requirement the user holds, under any capitalisation, produces no record. */
  lemma HeldRequirementHasNoGap(db: Catalog, userSkills: seq<UserSkill>, reqs: seq<Requirement>, i: int)
    requires 0 <= i < |reqs|
    requires exists u :: 0 <= u < |userSkills| && Lower(userSkills[u].name) == Lower(reqs[i].name)
    ensures forall g :: g in AnalyzeSkillGap(db, userSkills, reqs) ==> Lower(g.name) != Lower(reqs[i].name)
  {
    AnalyzeSkillGapRecords(db, userSkills, reqs);
  }

  /** Duplicate unheld requirements produce duplicate records. */
  lemma {:induction false} DuplicateRequirementsDuplicateGaps(db: Catalog, userSkills: seq<UserSkill>, req: Requirement)
    requires !Holds(userSkills, req.name)
    ensures AnalyzeSkillGap(db, userSkills, [req, req]) == [MakeGap(db, userSkills, req), MakeGap(db, userSkills, req)]
  {
    var g := MakeGap(db, userSkills, req);
    assert [req, req][1..] == [req];
    assert [req][1..] == [];
    assert Gaps(db, userSkills, [req, req]) == [g, g];
    assert SortDesc([g], CriticalityOf) == Insert(g, [], CriticalityOf);
  }

  /** A catalogued skill with an unheld prerequisite and a "Critical" reason reaches the maximum score. */
  lemma CriticalWithBlockerScoresMax()
    ensures
      var db := BuildCatalog([CatalogEntry("Vector Databases", "Advanced", ["Data Analysis"])]);
      var gaps := AnalyzeSkillGap(db, [UserSkill("Python", "high")], [Requirement("Vector Databases", "Critical for RAG")]);
      |gaps| == 1 && gaps[0].blockers == ["Data Analysis"] && gaps[0].criticalityScore == 100
  {
    var entry := CatalogEntry("Vector Databases", "Advanced", ["Data Analysis"]);
    var db := BuildCatalog([entry]);
    var user := [UserSkill("Python", "high")];
    var req := Requirement("Vector Databases", "Critical for RAG");
    assert [entry][..0] == [];
    assert db == BuildCatalog([])[Lower(entry.name) := entry];
    assert db == map[Lower("Vector Databases") := entry];
    assert Lower("Python") != Lower("Vector Databases") by {
      assert |Lower("Python")| != |Lower("Vector Databases")|;
    }
    assert !Holds(user, req.name) by {
      forall u | 0 <= u < |user|
        ensures Lower(user[u].name) != Lower(req.name)
      {
        assert |user[u].name| != |req.name|;
      }
    }
    assert Lower("Data Analysis") != Lower("Python") by {
      assert |Lower("Data Analysis")| != |Lower("Python")|;
    }
    assert !Holds(user, "Data Analysis") by {
      forall u | 0 <= u < |user|
        ensures Lower(user[u].name) != Lower("Data Analysis")
      {
        assert |user[u].name| != |"Data Analysis"|;
      }
    }
    assert Blockers(db, user, req.name) == ["Data Analysis"];
    ContainsPrefix(req.reason, CriticalMarker);
    var g := MakeGap(db, user, req);
    assert g.criticalityScore == 100;
    assert [req][1..] == [];
    assert Gaps(db, user, [req]) == [g];
    assert SortDesc([g], CriticalityOf) == Insert(g, [], CriticalityOf);
  }
}

=== FILE: skill_gap_chart.dfy ===
/**
 * The skill-gap chart's classification: each market requirement is matched
 * against the user's skills by lower-cased name; the first matching skill
 * decides between "matched" (confidence "high") and "partial", and a
 * requirement with no match is "missing". Requirements are JavaScript
 * objects, modelled as maps from field names to values, so that "every
 * other field is kept" can be stated.
 */
module SkillGapChart {
  import opened Text
  import opened Seqs

  /** A field value: a string, or `undefined` (an absent property read). */
  datatype Value = Str(s: string) | Undefined

  type Obj = map<string, Value>

  datatype Option<T> = None | Some(value: T)

  datatype UserSkill = UserSkill(name: string, confidence: Value)

  /**
   * `req.name.toLowerCase()` needs a string name. It runs inside the `find`
   * callback, so only once there is at least one user skill to compare.
   */
  predicate Named(o: Obj) {
    "name" in o && o["name"].Str?
  }

  predicate SameName(a: string, b: string) {
    Lower(a) == Lower(b)
  }

  const MatchedStatus := Str("matched")
  const PartialStatus := Str("partial")
  const MissingStatus := Str("missing")

  /** `skills.find(...)` by lower-cased name, as an index: the first match, or none at all. */
  function FirstMatch(skills: seq<UserSkill>, name: string): (r: Option<nat>)
    ensures r.None? <==> forall i :: 0 <= i < |skills| ==> !SameName(skills[i].name, name)
    ensures r.Some? ==> r.value < |skills| && SameName(skills[r.value].name, name)
    ensures r.Some? ==> forall j :: 0 <= j < r.value ==> !SameName(skills[j].name, name)
  {
    if |skills| == 0 then None
    else if SameName(skills[0].name, name) then Some(0)
    else
      match FirstMatch(skills[1..], name)
      case None => None
      case Some(i) => Some(i + 1)
  }

  /** The requirement can be classified: its name is a string, or no callback ever reads it. */
  predicate Classifiable(req: Obj, skills: seq<UserSkill>) {
    |skills| > 0 ==> Named(req)
  }

  /** The `find` result for one requirement; with no skills the callback never runs and the name is never read. */
  function MatchOf(req: Obj, skills: seq<UserSkill>): (r: Option<nat>)
    requires Classifiable(req, skills)
    ensures |skills| == 0 ==> r.None?
    ensures |skills| > 0 ==> r == FirstMatch(skills, req["name"].s)
  {
    if |skills| == 0 then None else FirstMatch(skills, req["name"].s)
  }

  /** One requirement with its status, and the user's confidence when a skill matched. */
  function Classify(req: Obj, skills: seq<UserSkill>): (c: Obj)
    requires Classifiable(req, skills)
    ensures "status" in c && (c["status"] == MatchedStatus || c["status"] == PartialStatus || c["status"] == MissingStatus)
    ensures forall k :: k in req && k != "status" && (MatchOf(req, skills).Some? ==> k != "userConfidence") ==>
      k in c && c[k] == req[k]
    ensures MatchOf(req, skills).None? ==> c.Keys == req.Keys + {"status"}
    ensures MatchOf(req, skills).Some? ==>
      c.Keys == req.Keys + {"status", "userConfidence"}
      && c["userConfidence"] == skills[MatchOf(req, skills).value].confidence
  {
    match MatchOf(req, skills)
    case None => req["status" := MissingStatus]
    case Some(i) =>
      var status := if skills[i].confidence == Str("high") then MatchedStatus else PartialStatus;
      req["status" := status]["userConfidence" := skills[i].confidence]
  }

  /** A requirement is "missing" exactly when no user skill has its lower-cased name. */
  lemma MissingIff(req: Obj, skills: seq<UserSkill>)
    requires Classifiable(req, skills)
    ensures Classify(req, skills)["status"] == MissingStatus <==>
      |skills| == 0 || forall i :: 0 <= i < |skills| ==> !SameName(skills[i].name, req["name"].s)
  {
  }

  /** A found requirement is "matched" exactly when the first skill with its name has confidence "high". */
  lemma MatchedIff(req: Obj, skills: seq<UserSkill>)
    requires Classifiable(req, skills)
    ensures Classify(req, skills)["status"] == MatchedStatus <==>
      |skills| > 0 &&
      exists i ::
        && 0 <= i < |skills|
        && SameName(skills[i].name, req["name"].s)
        && skills[i].confidence == Str("high")
        && forall j :: 0 <= j < i ==> !SameName(skills[j].name, req["name"].s)
  {
    if |skills| > 0 {
      var name := req["name"].s;
      var m := FirstMatch(skills, name);
      forall i | 0 <= i < |skills| && SameName(skills[i].name, name)
        && forall j :: 0 <= j < i ==> !SameName(skills[j].name, name)
        ensures i == m.value
      {
      }
    }
  }

  function StatusIs(c: Obj, status: Value): bool {
    "status" in c && c["status"] == status
  }

  function IsMatched(c: Obj): bool { StatusIs(c, MatchedStatus) }
  function IsPartial(c: Obj): bool { StatusIs(c, PartialStatus) }
  function IsMissing(c: Obj): bool { StatusIs(c, MissingStatus) }

  /** Every requirement can be classified: all names are strings, or there are no user skills. */
  predicate AllClassifiable(reqs: seq<Obj>, skills: seq<UserSkill>) {
    |skills| > 0 ==> forall i :: 0 <= i < |reqs| ==> Named(reqs[i])
  }

  /** `marketRequirements.map(...)`: one classified object per requirement, in order, each in exactly one status. */
  function Categorize(reqs: seq<Obj>, skills: seq<UserSkill>): (cs: seq<Obj>)
    requires AllClassifiable(reqs, skills)
    ensures |cs| == |reqs|
    ensures forall i :: 0 <= i < |reqs| ==> Classifiable(reqs[i], skills) && cs[i] == Classify(reqs[i], skills)
    ensures forall i :: 0 <= i < |cs| ==> ExactlyOne(cs[i], IsMatched, IsPartial, IsMissing)
  {
    var cs := seq(|reqs|, i requires 0 <= i < |reqs| => Classify(reqs[i], skills));
    assert forall i :: 0 <= i < |cs| ==> cs[i] == Classify(reqs[i], skills);
    cs
  }

  /** With no user skills every requirement is "missing" and otherwise unchanged, whatever its name. */
  lemma NoSkillsAllMissing(reqs: seq<Obj>)
    ensures forall i :: 0 <= i < |reqs| ==> Categorize(reqs, [])[i] == reqs[i]["status" := MissingStatus]
  {
  }

  datatype Chart = Chart(matched: seq<Obj>, partial: seq<Obj>, missing: seq<Obj>)

  /** Classified requirements fall into exactly one of the three filters. */
  lemma ClassifiedPartition(reqs: seq<Obj>, skills: seq<UserSkill>)
    requires AllClassifiable(reqs, skills)
    ensures
      var cs := Categorize(reqs, skills);
      multiset(Filter(cs, IsMatched)) + multiset(Filter(cs, IsPartial)) + multiset(Filter(cs, IsMissing)) == multiset(cs)
  {
    FilterPartition3(Categorize(reqs, skills), IsMatched, IsPartial, IsMissing);
  }

  /** The three filters: order-preserving, and together a permutation of the classified requirements. */
  function Split(reqs: seq<Obj>, skills: seq<UserSkill>): (chart: Chart)
    requires AllClassifiable(reqs, skills)
    ensures chart.matched == Filter(Categorize(reqs, skills), IsMatched)
    ensures chart.partial == Filter(Categorize(reqs, skills), IsPartial)
    ensures chart.missing == Filter(Categorize(reqs, skills), IsMissing)
    ensures multiset(chart.matched) + multiset(chart.partial) + multiset(chart.missing) == multiset(Categorize(reqs, skills))
    ensures |chart.matched| + |chart.partial| + |chart.missing| == |reqs|
    ensures forall c :: c in chart.matched ==> StatusIs(c, MatchedStatus)
    ensures forall c :: c in chart.partial ==> StatusIs(c, PartialStatus)
    ensures forall c :: c in chart.missing ==> StatusIs(c, MissingStatus)
  {
    var cs := Categorize(reqs, skills);
    var chart := Chart(Filter(cs, IsMatched), Filter(cs, IsPartial), Filter(cs, IsMissing));
    ClassifiedPartition(reqs, skills);
    assert |multiset(chart.matched)| + |multiset(chart.partial)| + |multiset(chart.missing)| == |multiset(cs)|;
    chart
  }

  /** The user skill a requirement object stands for when both lists are the same array. */
  function AsUserSkill(o: Obj): UserSkill
    requires Named(o)
  {
    UserSkill(o["name"].s, if "confidence" in o then o["confidence"] else Undefined)
  }

  function AsUserSkills(reqs: seq<Obj>): (skills: seq<UserSkill>)
    requires forall i :: 0 <= i < |reqs| ==> Named(reqs[i])
    ensures |skills| == |reqs|
    ensures forall i :: 0 <= i < |reqs| ==> skills[i] == AsUserSkill(reqs[i])
  {
    seq(|reqs|, i requires 0 <= i < |reqs| => AsUserSkill(reqs[i]))
  }

  /** Classifying a list against itself, as the dashboard does, never yields "missing". */
  lemma SameListNoMissing(reqs: seq<Obj>)
    requires forall i :: 0 <= i < |reqs| ==> Named(reqs[i])
    ensures Split(reqs, AsUserSkills(reqs)).missing == []
  {
    var skills := AsUserSkills(reqs);
    var cs := Categorize(reqs, skills);
    forall i | 0 <= i < |reqs|
      ensures !IsMissing(cs[i])
    {
      assert SameName(skills[i].name, reqs[i]["name"].s);
    }
    NoneSatisfy(cs, IsMissing);
  }
}

=== FILE: sorting.dfy ===
/**
 * Stable descending sort by an integer key, the behaviour of
 * `xs.sort((a, b) => key(b) - key(a))` (ECMAScript requires `sort` to be
 * stable since the 2019 edition).
 */
module Sorting {

  predicate SortedDesc<T>(s: seq<T>, key: T -> int) {
    forall i, j :: 0 <= i < j < |s| ==> key(s[i]) >= key(s[j])
  }

  /** The elements whose key is `k`, in their order in `s`. */
  function KeyFilter<T>(s: seq<T>, key: T -> int, k: int): seq<T> {
    if |s| == 0 then [] else (if key(s[0]) == k then [s[0]] else []) + KeyFilter(s[1..], key, k)
  }

  /** A stable reordering keeps, for every key, the order of the elements that share it. */
  ghost predicate StableReorder<T>(s: seq<T>, r: seq<T>, key: T -> int) {
    forall k :: KeyFilter(r, key, k) == KeyFilter(s, key, k)
  }

  /** Insert `x` into a sorted sequence before every element whose key is not greater than its own. */
  function Insert<T>(x: T, s: seq<T>, key: T -> int): (r: seq<T>)
    ensures |r| == |s| + 1
    ensures multiset(r) == multiset(s) + multiset{x}
  {
    if |s| == 0 || key(x) >= key(s[0]) then
      [x] + s
    else
      assert s == [s[0]] + s[1..];
      [s[0]] + Insert(x, s[1..], key)
  }

  lemma {:induction false} InsertSorted<T>(x: T, s: seq<T>, key: T -> int)
    requires SortedDesc(s, key)
    ensures SortedDesc(Insert(x, s, key), key)
  {
    if |s| > 0 && key(x) < key(s[0]) {
      var t := Insert(x, s[1..], key);
      InsertSorted(x, s[1..], key);
      forall i | 0 <= i < |t|
        ensures key(s[0]) >= key(t[i])
      {
        assert t[i] in multiset(t);
        if t[i] != x {
          assert t[i] in multiset(s[1..]);
          var j :| 0 <= j < |s[1..]| && s[1..][j] == t[i];
        }
      }
      assert Insert(x, s, key) == [s[0]] + t;
    }
  }

  lemma {:induction false} InsertKeyFilter<T>(x: T, s: seq<T>, key: T -> int, k: int)
    requires SortedDesc(s, key)
    ensures KeyFilter(Insert(x, s, key), key, k) == (if key(x) == k then [x] else []) + KeyFilter(s, key, k)
  {
    if |s| == 0 || key(x) >= key(s[0]) {
      assert ([x] + s)[1..] == s;
    } else {
      var t := Insert(x, s[1..], key);
      InsertKeyFilter(x, s[1..], key, k);
      assert ([s[0]] + t)[1..] == t;
    }
  }

  /** Insertion sort: sorted, a permutation of the input, and stable. */
  function SortDesc<T>(s: seq<T>, key: T -> int): (r: seq<T>)
    ensures SortedDesc(r, key)
    ensures multiset(r) == multiset(s)
    ensures |r| == |s|
    ensures forall k :: KeyFilter(r, key, k) == KeyFilter(s, key, k)
  {
    if |s| == 0 then []
    else
      var t := SortDesc(s[1..], key);
      InsertSorted(s[0], t, key);
      forall k | true
        ensures KeyFilter(Insert(s[0], t, key), key, k) == KeyFilter(s, key, k)
      {
        InsertKeyFilter(s[0], t, key, k);
      }
      assert s == [s[0]] + s[1..];
      Insert(s[0], t, key)
  }

  /** Stability and sortedness together pin the result down: any other stable sorted permutation is the same sequence. */
  lemma {:induction false} SortUnique<T>(s: seq<T>, r: seq<T>, key: T -> int)
    requires SortedDesc(r, key)
    requires StableReorder(s, r, key)
    ensures r == SortDesc(s, key)
  {
    var q := SortDesc(s, key);
    assert StableReorder(q, r, key);
    SortedStableEqual(q, r, key);
  }

  lemma {:induction false} KeyFilterLength<T>(s: seq<T>, key: T -> int, k: int)
    ensures |KeyFilter(s, key, k)| <= |s|
    ensures |s| > 0 && key(s[0]) == k ==> |KeyFilter(s, key, k)| > 0 && KeyFilter(s, key, k)[0] == s[0]
  {
    if |s| > 0 {
      KeyFilterLength(s[1..], key, k);
    }
  }

  /** When every key lies below k, no element has key k, so the k-block is empty. */
  lemma {:induction false} KeyFilterEmptyAbove<T>(s: seq<T>, key: T -> int, k: int)
    requires forall i :: 0 <= i < |s| ==> key(s[i]) < k
    ensures KeyFilter(s, key, k) == []
  {
    if |s| > 0 {
      KeyFilterEmptyAbove(s[1..], key, k);
    }
  }

  /** Two sorted sequences that agree on every key block are equal. */
  lemma {:induction false} SortedStableEqual<T>(a: seq<T>, b: seq<T>, key: T -> int)
    requires SortedDesc(a, key) && SortedDesc(b, key)
    requires forall k :: KeyFilter(a, key, k) == KeyFilter(b, key, k)
    ensures a == b
    decreases |a| + |b|
  {
    if |a| > 0 {
      KeyFilterLength(a, key, key(a[0]));
    }
    if |b| > 0 {
      KeyFilterLength(b, key, key(b[0]));
    }
    if |a| == 0 || |b| == 0 {
      if |a| != |b| {
        assert false;
      }
    } else {
      var ka, kb := key(a[0]), key(b[0]);
      if ka > kb {
        KeyFilterLength(a, key, ka);
        KeyFilterEmptyAbove(b, key, ka);
        assert false;
      } else if kb > ka {
        KeyFilterLength(b, key, kb);
        KeyFilterEmptyAbove(a, key, kb);
        assert false;
      } else {
        KeyFilterLength(a, key, ka);
        KeyFilterLength(b, key, ka);
        assert a[0] == b[0];
        forall k | true
          ensures KeyFilter(a[1..], key, k) == KeyFilter(b[1..], key, k)
        {
          var fa, fb := KeyFilter(a[1..], key, k), KeyFilter(b[1..], key, k);
          assert KeyFilter(a, key, k) == KeyFilter(b, key, k);
          if k == ka {
            assert KeyFilter(a, key, k) == [a[0]] + fa;
            assert KeyFilter(b, key, k) == [b[0]] + fb;
            assert ([a[0]] + fa)[1..] == fa;
            assert ([b[0]] + fb)[1..] == fb;
          } else {
            assert KeyFilter(a, key, k) == KeyFilter(a[1..], key, k);
            assert KeyFilter(b, key, k) == KeyFilter(b[1..], key, k);
          }
        }
        SortedStableEqual(a[1..], b[1..], key);
        assert a == [a[0]] + a[1..];
        assert b == [b[0]] + b[1..];
      }
    }
  }
}

=== FILE: text.dfy ===
/**
 * Character- and string-level helpers shared by every component.
 *
 * Both front end (`toLowerCase`) and back end (`str.lower`) lower-case with
 * full Unicode tables; this model uses one ASCII `Lower`, applied at every
 * site where the source lower-cases.
 */
module Text {

  function LowerChar(c: char): char {
    if 'A' <= c <= 'Z' then (c as int + 32) as char else c
  }

  function UpperChar(c: char): char {
    if 'a' <= c <= 'z' then (c as int - 32) as char else c
  }

  /** ASCII lower-casing, character by character. */
  function Lower(s: string): (r: string)
    ensures |r| == |s|
    ensures forall i :: 0 <= i < |s| ==> r[i] == LowerChar(s[i])
  {
    seq(|s|, i requires 0 <= i < |s| => LowerChar(s[i]))
  }

  /** ASCII upper-casing, character by character. */
  function Upper(s: string): (r: string)
    ensures |r| == |s|
    ensures forall i :: 0 <= i < |s| ==> r[i] == UpperChar(s[i])
  {
    seq(|s|, i requires 0 <= i < |s| => UpperChar(s[i]))
  }

  /** Lower-casing is idempotent, so comparing lower-cased names is an equivalence. */
  lemma LowerIdempotent(s: string)
    ensures Lower(Lower(s)) == Lower(s)
  {
  }

  /** `needle` occurs in `hay` starting at position `i`. */
  predicate OccursAt(hay: string, needle: string, i: int) {
    0 <= i && i + |needle| <= |hay| && hay[i..i + |needle|] == needle
  }

  /** Substring test, as JavaScript's `includes` and Python's `in` on strings. */
  predicate Contains(hay: string, needle: string) {
    exists i | 0 <= i <= |hay| - |needle| :: OccursAt(hay, needle, i)
  }

  /** A prefix is a witness of containment. */
  lemma ContainsPrefix(hay: string, needle: string)
    requires |needle| <= |hay| && hay[..|needle|] == needle
    ensures Contains(hay, needle)
  {
    assert OccursAt(hay, needle, 0);
  }

  /**
   * Characters Python's `str.isspace` accepts within ASCII: tab, line feed,
   * vertical tab, form feed, carriage return, the four separators 0x1C-0x1F
   * and space.
   */
  predicate IsSpace(c: char) {
    (9 <= c as int <= 13) || (28 <= c as int <= 32)
  }

  predicate IsDigit(c: char) {
    '0' <= c <= '9'
  }

  /** Characters of the regular-expression class `\w` within ASCII. */
  predicate IsWordChar(c: char) {
    ('a' <= c <= 'z') || ('A' <= c <= 'Z') || IsDigit(c) || c == '_'
  }

  /** Non-empty and made of digits only: what `^\d+$` accepts on a stripped string. */
  predicate AllDigits(s: string) {
    |s| > 0 && forall i :: 0 <= i < |s| ==> IsDigit(s[i])
  }

  function StripLeft(s: string): (r: string)
    ensures |r| <= |s| && r == s[|s| - |r|..]
    ensures |r| > 0 ==> !IsSpace(r[0])
    ensures forall i :: 0 <= i < |s| - |r| ==> IsSpace(s[i])
  {
    if |s| > 0 && IsSpace(s[0]) then StripLeft(s[1..]) else s
  }

  function StripRight(s: string): (r: string)
    ensures |r| <= |s| && r == s[..|r|]
    ensures |r| > 0 ==> !IsSpace(r[|r| - 1])
    ensures forall i :: |r| <= i < |s| ==> IsSpace(s[i])
  {
    if |s| > 0 && IsSpace(s[|s| - 1]) then StripRight(s[..|s| - 1]) else s
  }

  /** `r` sits in `s` at position `i` with only white space before and after it. */
  predicate SpaceFramed(s: string, r: string, i: int) {
    && OccursAt(s, r, i)
    && (forall j :: 0 <= j < i ==> IsSpace(s[j]))
    && (forall j :: i + |r| <= j < |s| ==> IsSpace(s[j]))
  }

  /** Python's `str.strip()` with no argument: drop leading and trailing white space. */
  function Strip(s: string): (r: string)
    ensures |r| <= |s|
    ensures |r| > 0 ==> !IsSpace(r[0]) && !IsSpace(r[|r| - 1])
    ensures exists i :: SpaceFramed(s, r, i)
    ensures Contains(s, r)
  {
    StripBothFramed(s);
    StripRight(StripLeft(s))
  }

  /** Stripping left then right leaves the middle of `s`, framed by white space. */
  lemma StripBothFramed(s: string)
    ensures SpaceFramed(s, StripRight(StripLeft(s)), |s| - |StripLeft(s)|)
  {
    FramedByParts(s, StripLeft(s), StripRight(StripLeft(s)));
  }

  /** A white-space suffix `l` of `s` whose prefix `r` is followed only by white space frames `r`. */
  lemma FramedByParts(s: string, l: string, r: string)
    requires |l| <= |s| && l == s[|s| - |l|..]
    requires |r| <= |l| && r == l[..|r|]
    requires forall j :: 0 <= j < |s| - |l| ==> IsSpace(s[j])
    requires forall j :: |r| <= j < |l| ==> IsSpace(l[j])
    ensures SpaceFramed(s, r, |s| - |l|)
  {
    var i := |s| - |l|;
    assert s[i..i + |r|] == r;
    forall j | i + |r| <= j < |s|
      ensures IsSpace(s[j])
    {
      assert s[j] == l[j - i];
    }
  }

  /** A string with no white space at either end is its own stripped form. */
  lemma StripUnchanged(s: string)
    requires |s| > 0 ==> !IsSpace(s[0]) && !IsSpace(s[|s| - 1])
    ensures Strip(s) == s
  {
  }

  /** The number of items Python's `str.split()` (no argument) returns: maximal runs of non-space characters. */
  function WordCount(s: string): nat {
    if |s| == 0 then 0
    else
      WordCount(s[..|s| - 1])
      + (if !IsSpace(s[|s| - 1]) && (|s| == 1 || IsSpace(s[|s| - 2])) then 1 else 0)
  }

  /** A string without white space is at most one word. */
  lemma {:induction false} WordCountNoSpace(s: string)
    requires forall i :: 0 <= i < |s| ==> !IsSpace(s[i])
    ensures WordCount(s) <= 1
    ensures |s| > 0 ==> WordCount(s) == 1
  {
    if |s| > 1 {
      WordCountNoSpace(s[..|s| - 1]);
    }
  }

  /** Splitting a string in two never loses a word boundary: words of the whole are at most the sum. */
  lemma {:induction false} WordCountAppend(a: string, b: string)
    ensures WordCount(a + b) <= WordCount(a) + WordCount(b)
    decreases |b|
  {
    if |b| == 0 {
      assert a + b == a;
    } else {
      var b' := b[..|b| - 1];
      assert (a + b)[..|a + b| - 1] == a + b';
      WordCountAppend(a, b');
    }
  }

  function DigitChar(d: nat): char
    requires d < 10
  {
    ('0' as int + d) as char
  }

  /** Decimal rendering of a natural number, as Python's f-string `{n}` and JavaScript's template literals. */
  function NatToString(n: nat): (r: string)
    ensures |r| > 0
    ensures forall i :: 0 <= i < |r| ==> IsDigit(r[i])
    ensures n < 10 <==> |r| == 1
  {
    if n < 10 then [DigitChar(n)] else NatToString(n / 10) + [DigitChar(n % 10)]
  }

  /** Reading the decimal digits back gives the number. */
  function DigitsValue(s: string): nat
    requires forall i :: 0 <= i < |s| ==> IsDigit(s[i])
  {
    if |s| == 0 then 0
    else
      assert IsDigit(s[|s| - 1]);
      10 * DigitsValue(s[..|s| - 1]) + (s[|s| - 1] as int - '0' as int)
  }

  lemma {:induction false} NatToStringRoundTrip(n: nat)
    ensures DigitsValue(NatToString(n)) == n
  {
    if n >= 10 {
      NatToStringRoundTrip(n / 10);
      var s := NatToString(n);
      assert s[..|s| - 1] == NatToString(n / 10);
    }
  }

  /** Distinct numbers render differently, so step labels built from them never collide. */
  lemma NatToStringInjective(m: nat, n: nat)
    requires NatToString(m) == NatToString(n)
    ensures m == n
  {
    NatToStringRoundTrip(m);
    NatToStringRoundTrip(n);
  }
}
